=== FILE: README.md ===
# keycli session lifecycle, in Dafny

This project models keycli's session lifecycle. keycli is a command-line client for the Keycloak identity server. A login stores a *session* (Keycloak's token pair plus the server coordinates) in a JSON file under the user's cache directory. Later commands load the session, refresh it, or end it. Each file is locked for exclusive access while it is read or written.

The model follows the Go packages:

| module | Go package | what it holds |
|---|---|---|
| `Errors` (errors.dfy) | — | `Option`, `Result`, and one `Error` constructor per message the code builds |
| `Core` (core.dfy) | `pkg/core` | `Session`, `IsExpired`, `CanBeRefreshed`, `IsValid`, the provider interface |
| `JsonFile` (jsonfile.dfy) | `pkg/infrastructure/jsonfile` | the repository as an abstract locked store over `map<path, Node>` |
| `Keycloak` (keycloak.dfy) | `pkg/infrastructure/keycloak` | token requests per grant, session construction, refresh mutation |
| `Trace` (trace.dfy) | — | the calls a service operation makes, and the lock discipline over them |
| `Service` (service.dfy) | `pkg/core` (`sessionService`) | `Load`, `LoadRefresh`, `create` and its two front ends, `Refresh`, `End` |
| `Strings` (strings.dfy) | Go's `strings` | `TrimSpace` with `unicode.IsSpace` |
| `Cli` (cli.dfy) | `pkg/interface/cli` | `Login` and `Logout` composed over Keycloak and the JSON store |
| `Cmd` (cmd.dfy) | `cmd` | the `login` command's argument handling |

Time is whole seconds. The wall clock is an explicit `now`, and `url.ParseRequestURI` is a caller-supplied predicate. Keycloak's endpoints are an oracle, `Keycloak.Server`. The session service sees its provider as a record of three functions, `Core.Provider`.

The operating-system failures the store cannot determine are passed in as `Service.IoFaults`: creating the directory, opening, reading, writing and removing. The terminal is `Cmd.Terminal`, the text the user would type at each prompt.

Every service operation returns three things:
- the Go result;
- the store afterwards;
- the trace of the calls it made, in order (`Trace.Event`).

The deferred `Close` appears in the trace where Go runs it: after the return value is computed, so after any `Write`. On these traces the model states:
- the lock discipline (`WellBracketed`);
- "one Close per successful Open" (counts via `multiset`);
- "every provider call is made under the lock" (`CallsUnderLock`), for `create` and `LoadRefresh`. `End` takes no lock: in `Logout` its provider call and its Remove run after `Load`'s deferred Close;
- "no Write unless refreshed".

## How the code differs from its documentation

The model follows the code. It does not follow the doc comments or the behaviour a reader might expect.

- **The expiry tests are inverted.** `IsExpired` names `created + ExpiresIn > now` "accessTokenExpired" (pkg/core/session.go:93). So it holds while the access token is still live. Its "expires soon" disjunct is implied by the first, so `beforeExpiry` has no effect (`Core.IsExpired`). `CanBeRefreshed` holds once the refresh window has *closed* (`Core.CanBeRefreshed`). Consequences:
  - `Refresh` reaches the provider only between the refresh expiry and the access expiry. With the usual configuration (refresh lifetime at least the access lifetime), that window is empty (`Service.RefreshNeverReachesProvider`).
  - A freshly issued session reports "is expired" (`Service.RefreshOfFreshSessionReportsExpired`, `Cli.WorkLoginScenario`).
  - `End` contacts Keycloak only for a session whose refresh token has already expired (`Service.End`).
- **`LoadRefresh` holds one Open/Close pair** across the read, the provider refresh and the write-back. It does not re-open for the write (`Service.LoadRefreshHoldsOneLock`).
- **`Open` does not reject a second Open.** It replaces the held handle. `Close` does not reset the handle to nil, so a second Close reports the file as already closed (`JsonFile.Open`, `JsonFile.Close`).
- **A login the provider refuses leaves an empty session file behind.** `Open` creates the file. Decoding an empty file fails, so a later `Load` of that name reports a decode failure rather than "does not exist" (`Service.FailedLoginLeavesUndecodableFile`).
- **`Remove` swallows stat failures.** It treats a path whose `os.Stat` fails as absent and returns nil (`JsonFile.Remove`).
- **`End(force = true)` drops the provider's error** and removes the file regardless (`Service.ForcedEndAlwaysCleansUp`).
- **`End` removes the file of the name stored inside the session.** That is not necessarily the name `Logout` was given. `Cli.Logout` therefore states its post-state for the loaded session's name.
- **`Logout` cannot remove an invalid stored session.** `Load` rejects it first, so `End`'s invalid-session branch is unreachable from `Logout`, with or without `force` (`Cli.LogoutCannotRemoveInvalidSession`).

## Model

| member | source | states |
|---|---|---|
| Core.IsExpired | pkg/core/session.go:90-96 | As written, the test holds exactly while `now` is before the access expiry, for either value of `beforeExpiry`. The "soon" flag never changes the answer. |
| Core.CanBeRefreshed | pkg/core/session.go:98-103 | As written, the test holds exactly once `now` has reached the refresh expiry. |
| Core.IsValid | pkg/core/session.go:105-122 | Each listed defect makes a session invalid: token type not "Bearer", an empty URL, realm, client ID, access or refresh token, a non-positive lifetime, a zero or future creation time, or a URL that does not parse. When none holds, the session is valid. |
| Core.ValidityOutlivesExpiry | pkg/core/session.go:105-122 | Validity never looks at expiry: a session valid at one instant stays valid at every later one. |
| Core.FreshSessionReadsAsExpiredAndUnrefreshable | pkg/core/session.go:90-103 | A session created at `now` with positive lifetimes reads as expired and as not refreshable. |
| JsonFile.PathFromName | pkg/infrastructure/jsonfile/session.go:136-144 | The file is `<dir>/keycli/tokens/<name>.json`. `<dir>` is the user cache directory, or the temp directory when that lookup fails. |
| JsonFile.PathFromNameInjective | pkg/infrastructure/jsonfile/session.go:136-144 | Under the model's plain join, two session names share a file only if they are equal. |
| JsonFile.NewRepo | pkg/infrastructure/jsonfile/session.go:23-26 | A new repository holds no handle and leaves the file system as it is. |
| JsonFile.CheckFile | pkg/infrastructure/jsonfile/session.go:147-160 | The four outcomes: missing gives (false, nil); another stat failure gives (false, that error); a non-regular path gives (true, "not a file"); a regular file gives (true, nil). |
| JsonFile.Exists | pkg/infrastructure/jsonfile/session.go:29-33 | A name "exists" without error exactly when its path is a regular file. "Does not exist" means the path is missing or cannot be stat'ed. |
| JsonFile.Open | pkg/infrastructure/jsonfile/session.go:36-54 | Open succeeds exactly when there is no directory or open fault and the path is absent or a regular file. On success it locks that path, replaces any handle already held, and creates an empty file if none was there. A failure changes nothing. No other path changes. |
| JsonFile.Close | pkg/infrastructure/jsonfile/session.go:57-68 | Close is a no-op when nothing was ever opened. Otherwise it marks the handle closed but keeps it, so it fails exactly on a second Close. The files are untouched. |
| JsonFile.Decode | pkg/infrastructure/jsonfile/session.go:82-88 | Only content holding an encoded session decodes, to that session. An empty file is a decode error. |
| JsonFile.Read | pkg/infrastructure/jsonfile/session.go:71-89 | Read needs an opened handle (the source panics without one). It returns the stored session exactly when the handle is open, the read does not fail, and the content decodes. An empty file gives the decode error. |
| JsonFile.Write | pkg/infrastructure/jsonfile/session.go:92-115 | Write needs an opened handle. A nil session changes nothing. A successful write makes the held file's record that session. A failed write on an open handle leaves the file truncated to empty. No other path changes. |
| JsonFile.Remove | pkg/infrastructure/jsonfile/session.go:118-133 | Nothing is deleted and nil is returned when `checkFile` says "not existing", including a failed stat. A non-regular path is an error and is kept. Only a regular file with no OS fault is deleted. Success means no regular file remains. |
| JsonFile.WriteReopenReadRoundTrip | pkg/infrastructure/jsonfile/session.go:92-115 | At the level of the stored record, writing `s`, closing, re-opening the same name and reading gives back `s`. |
| JsonFile.OffsetAfterRead | pkg/infrastructure/jsonfile/session.go:77 | After reading the whole file, the offset is at the start only if the file was empty. |
| JsonFile.ContentWrittenAt | pkg/infrastructure/jsonfile/session.go:108-109 | Truncating without seeking stores the session only when the offset was at the start. Otherwise the file no longer decodes. |
| JsonFile.ReadThenWriteLosesTheSession | pkg/infrastructure/jsonfile/session.go:71-115 | In one open, after a successful Read, the write as performed leaves an undecodable file. The record-level `Write` would have stored the session. |
| Trace.WellBracketedBalances | pkg/core/session.go:139-143 | In a trace that keeps the lock discipline, the successful Opens and the Closes are equal in number. |
| Trace.ScopedLockCoversCalls | pkg/core/session.go:164-185 | For a trace shaped "unlocked calls, Open, calls under the lock, Close, unlocked calls" whose unlocked parts call no provider, every provider call happens while the lock is held. |
| Keycloak.PasswordOptions | pkg/infrastructure/keycloak/session.go:18-26 | The password login uses grant type "password". It carries the client ID, user and password and no client secret. |
| Keycloak.ClientSecretOptions | pkg/infrastructure/keycloak/session.go:28-35 | The client-secret login uses grant type "client_credentials". It carries the client ID and secret and no user or password. |
| Keycloak.Create | pkg/infrastructure/keycloak/session.go:38-58 | A session comes back exactly when the token request succeeds. A failure is wrapped as "failed to get token". The session's name, URL, realm and skip-verify are the arguments, its client ID is the option's, its token is the one issued and its creation time is `now`. |
| Keycloak.CreateWithUsernamePassword | pkg/infrastructure/keycloak/session.go:18-26 | The password login succeeds exactly when Keycloak answers the password grant. The session then carries the arguments, the token and `now`. |
| Keycloak.CreateWithClientSecret | pkg/infrastructure/keycloak/session.go:28-35 | The client-secret login succeeds exactly when Keycloak answers the client-credentials grant. The session then carries the arguments, the token and `now`. |
| Keycloak.LogoutCallFor | pkg/infrastructure/keycloak/session.go:64-66 | Ending a session sends its current refresh token with an empty client secret, to the session's own server, realm and client. |
| Keycloak.End | pkg/infrastructure/keycloak/session.go:61-72 | End succeeds exactly when Keycloak accepts the logout. Its error is wrapped as "failed to logout". |
| Keycloak.RefreshCallFor | pkg/infrastructure/keycloak/session.go:77-83 | A refresh is a "refresh_token" grant carrying the session's refresh token and client ID, sent to the session's own server and realm. |
| Keycloak.Refresh | pkg/infrastructure/keycloak/session.go:74-94 | The result is true exactly when the grant succeeds. Success replaces exactly the token (with the one issued) and the creation time (with `now`). Failure returns the error wrapped and the session untouched. |
| Keycloak.ProviderFor | pkg/infrastructure/keycloak/session.go:18-94 | Seen from the service, every session Keycloak creates carries the request's name, URL, realm, client ID and skip-verify, and is stamped `now`. A refresh never changes anything but the token and the creation time. |
| Service.Loadable | pkg/core/session.go:134-157 | Reference definition of a successful load: the stored record decodes and is valid, and none of the three repository calls fails. Only valid sessions qualify. |
| Service.OpenAndRead | pkg/core/session.go:159-179 | The prefix Load and LoadRefresh share. A missing name fails before any Open. A found name always goes on to Open, so the Exists error is ignored. Once Open succeeds, the trace is exactly Exists, Open, Read with the lock held. It yields a session exactly when `Loadable` does, and that same session. |
| Service.Load | pkg/core/session.go:134-157 | Load returns a session exactly when the reference definition yields one, and it is that session. The store is left as it was. |
| Service.LoadOnlyReads | pkg/core/session.go:134-157 | Load makes no provider call, no Write and no Remove. A missing name is reported without opening. |
| Service.LoadHoldsOneLock | pkg/core/session.go:139-143 | Load makes at most one successful Open, on the name, and exactly as many Closes. |
| Service.LoadFollowsLockDiscipline | pkg/core/session.go:134-157 | On every path Load's calls keep the lock discipline: every successful Open is followed by its Close, with nothing locked at the end. |
| Service.LoadRefresh | pkg/core/session.go:159-195 | Nothing comes back unless the stored session loads. What comes back is that session as `Refresh` leaves it. A session that loads comes back whenever Refresh reports no error and any write-back goes through. A Refresh error is returned as it is. A session that does not read as expired comes back unchanged, with no provider call and no Write. The provider is called exactly when `now` lies between the refresh expiry and the access expiry. |
| Service.LoadRefreshWritesBackOnlyRefreshed | pkg/core/session.go:181-192 | The session is written back exactly when Refresh reports (true, nil), and the write is of that session. Without a refresh the store is unchanged. After a successful write-back, the stored record is the refreshed session. This holds for the record-level `Write`, not for the byte-level write the code performs after `Read` (see Findings). |
| Service.LoadRefreshOfUnloadableChangesNothing | pkg/core/session.go:159-179 | A stored session that is missing, unreadable or invalid is never sent to the provider or written, and the store is unchanged. |
| Service.LoadRefreshTouchesOnlyItsFile | pkg/core/session.go:159-195 | Only the file of the name being refreshed can change. |
| Service.LoadRefreshHoldsOneLock | pkg/core/session.go:164-168 | LoadRefresh makes at most one successful Open and exactly as many Closes, and every Open is on the name being refreshed. |
| Service.LoadRefreshShape | pkg/core/session.go:159-195 | Once Open succeeds, the trace is Exists, Open, the calls under the lock, then Close last. The calls under the lock open and close nothing. |
| Service.LoadRefreshFollowsLockDiscipline | pkg/core/session.go:159-195 | On every path LoadRefresh's calls keep the lock discipline. |
| Service.LoadRefreshCallsUnderLock | pkg/core/session.go:164-192 | The provider refresh is made while the session file is locked. |
| Service.Refresh | pkg/core/session.go:232-246 | Refresh makes at most one provider call, exactly when the session reads as expired and refreshable (between refresh expiry and access expiry). Otherwise it returns (false, nil), or "is expired" when it cannot refresh. A provider error is wrapped and gives false. The provider's bool is passed through. |
| Service.RefreshNeverReachesProvider | pkg/core/session.go:232-246 | With a refresh lifetime at least the access lifetime, Refresh never calls the provider and never reports a refresh. |
| Service.RefreshOfFreshSessionReportsExpired | pkg/core/session.go:232-238 | A session issued at `now` takes the "is expired, login again" error path. |
| Service.Create | pkg/core/session.go:211-230 | The login succeeds exactly when the file opens, the provider issues a session and the write goes through. The session returned is the provider's, and it is then the record stored under the name. |
| Service.CreateCallsProviderOnce | pkg/core/session.go:211-222 | The provider is asked, with the request as given, exactly when Open succeeded. When Open fails, nothing changes and no provider call or Write happens. |
| Service.CreateWritesOnlyIssuedSession | pkg/core/session.go:218-227 | The only session ever written is the one the provider issued. A refused login writes nothing and leaves the stored record as it was. |
| Service.CreateHoldsOneLock | pkg/core/session.go:212-216 | `create` makes at most one successful Open, exactly as many Closes and at most one provider login. Only the session's own file can change. |
| Service.CreateShape | pkg/core/session.go:211-230 | `create`'s trace is a failed Open alone, or: Open, the login, the write when the login succeeded, then Close. |
| Service.CreateFollowsLockDiscipline | pkg/core/session.go:211-230 | Every successful Open in `create` is followed by exactly one Close, on every path. |
| Service.CreateCallsUnderLock | pkg/core/session.go:212-222 | The provider login is made while the session file is locked. |
| Service.CreateWithUsernamePassword | pkg/core/session.go:197-202 | The provider is asked for a password login with exactly the given arguments, and the first call is the Open of that name. |
| Service.CreateWithClientSecret | pkg/core/session.go:204-209 | The provider is asked for a client-secret login with exactly the given arguments, and the first call is the Open of that name. |
| Service.FailedLoginLeavesUndecodableFile | pkg/core/session.go:211-222 | A refused first login leaves an empty file at the name. Loading that name then fails with a decode error. |
| Service.End | pkg/core/session.go:248-259 | The provider is contacted exactly for a valid session for which `CanBeRefreshed` is true, that is, whose refresh token has expired. An invalid session, or one for which `CanBeRefreshed` is false (its refresh token still live), goes straight to Remove without a provider call. A provider failure without `force` returns an error and calls no Remove. With `force`, Remove is always called. Whenever Remove is called, End's error and store are exactly `JsonFile.Remove`'s. Success leaves no regular file. |
| Service.ForcedEndAlwaysCleansUp | pkg/core/session.go:253-258 | With `force`, when the removal itself can succeed, End returns nil and no record remains, whatever the provider answered. |
| Strings.TrimSpace | cmd/login.go:44 | Neither end of the trimmed string is white space in the sense of `unicode.IsSpace`. |
| Strings.TrimSpaceCutsOnlySpace | cmd/login.go:44 | The trimmed string is an infix of the input, and what is cut at either end is white space only. Together with `TrimSpace`'s contract this fixes the result. |
| Strings.TrimmedIsFixedPoint | cmd/login.go:57 | A string whose ends are not white space trims to itself. |
| Strings.TrimSpaceIdempotent | cmd/login.go:51 | Trimming twice equals trimming once. |
| Strings.TrimSpaceEmptyIffAllSpace | cmd/login.go:56-60 | A string trims to empty exactly when it is all white space. This is when a realm is rejected. |
| Cli.WorldOf | pkg/interface/cli/login.go:13-15 | Each command builds the service over a fresh repository and the Keycloak provider, at the command's host, clock, URL parser and faults. Its create, refresh and end are Keycloak's. |
| Cli.Login | pkg/interface/cli/login.go:12-32 | Every login request sent carries the command's arguments. A non-empty secret key selects the client-secret grant, otherwise the password grant. The error is exactly the service `create`'s for that request, unwrapped, and nil exactly when it succeeds. The store afterwards is `create`'s. |
| Cli.LoginStoresIssuedSession | pkg/interface/cli/login.go:17-26 | Login returns nil exactly when the file opens, Keycloak issues a token for the selected grant and the write succeeds. The stored session then carries the arguments, that token and the login instant. |
| Cli.LoginCreatesOnce | pkg/interface/cli/login.go:18-22 | The trace is that of exactly one service `create`, with at most one provider login, starting with its Open. |
| Cli.Logout | pkg/interface/cli/logout.go:14-28 | A session that does not load gives Load's error wrapped, with nothing removed or ended and the store unchanged. For a loaded session the result is End's error wrapped, and nil exactly when End returns nil. Nil means no regular file remains for the loaded session. |
| Cli.LogoutEndsLoadedSession | pkg/interface/cli/logout.go:18-24 | For a session that loads, Keycloak is contacted exactly when `CanBeRefreshed` is true, that is, once its refresh token has expired. `force` reaches End unchanged, and with it Remove is always called. Remove is called exactly when forced, when Keycloak is not contacted, or when Keycloak accepts the logout. |
| Cli.LogoutCannotRemoveInvalidSession | pkg/interface/cli/logout.go:18-22 | An invalid stored session is never removed by logging out, even with `force`. Logout fails and the store is unchanged. |
| Cli.WorkLoginScenario | pkg/interface/cli/login.go:18-26 | A password login for "work" stores a valid session. At that instant it reads as expired, and 300 seconds later, once it has expired, it reads as live. A LoadRefresh right after login reports it expired. |
| Cmd.SessionName | cmd/login.go:40-44 | The name is the one positional argument, or "keycloak", trimmed. |
| Cmd.NormalizeURL | cmd/login.go:51-54 | The URL is trimmed and ends in "/". It is the trimmed URL itself if that already ends in "/", else the trimmed URL with one "/" added. |
| Cmd.NormalizeURLIdempotent | cmd/login.go:51-54 | Normalising a normalised URL changes nothing. |
| Cmd.ParseLogin | cmd/login.go:33-84 | More than one argument is rejected. A realm that trims to empty is rejected before any login. At most one argument with a realm that is not empty after trimming always parses. URL, realm, client ID, secret key and the user flag are trimmed; the password is not. The user (password) is asked for only when the trimmed secret key is empty and the trimmed user flag (the password flag) is empty. A prompted value is passed on as typed. |
| Cmd.SecretKeySkipsCredentialPrompts | cmd/login.go:62-79 | With a secret key, no user or password is asked for, and the flags' values are passed on. |
| Cmd.RunLogin | cmd/login.go:36-89 | An argument error returns before any repository or provider call, with nothing changed. A successful parse runs `Cli.Login` with exactly the parsed arguments. |
| Cmd.DefaultLoginArguments | cmd/login.go:95-101 | With only the flag defaults, the command asks for URL, user and password. It then logs in as "keycloak" to realm "master" with client "admin-cli", no secret key and certificate checks on. |

## Findings

| source | as written | input that shows it | evidently intended | confidence | as-written member | corrected member |
|---|---|---|---|---|---|---|
| pkg/infrastructure/jsonfile/session.go:108-109 | `Write` calls `Truncate(0)` and then writes at the handle's current offset; there is no seek back to the start | `LoadRefresh` of a stored session that Keycloak refreshes: `Read` has moved the offset to the end of the old JSON, so the new JSON lands after a run of zero bytes and the next read cannot decode the file | the file holds exactly the new session's JSON | not executed | JsonFile.ReadThenWriteLosesTheSession | JsonFile.WriteReopenReadRoundTrip |

The as-written half is `JsonFile.ContentWrittenAt` (with `JsonFile.OffsetAfterRead`). The corrected half is the record-level `JsonFile.Write`, which the rest of the model uses.

## Left out

- Network and TLS: the HTTP token exchange, certificate checking and the 15-second request timeout are foreign calls. Keycloak is the oracle `Keycloak.Server`.
- Cross-process locking: `lockedfile`'s blocking and inter-process semantics are not modelled. The lock is the handle's open/closed flag.
- Byte-level JSON and file I/O: encoding, `ioutil.ReadAll`, directory permissions. Content is abstract (empty, a session, or malformed). The byte offset appears only in the Findings model.
- JsonFile.Write: does not model a `json.Marshal` failure, because a `Session` always encodes.
- JsonFile.PathFromName: `filepath.Join`'s lexical cleaning (duplicate separators, `..` in a name) is not modelled. The join is plain concatenation with "/".
- JsonFile.PathFromNameInjective: holds for the model's plain join only. Go's `filepath.Join` cleans the path, so names such as "x/../y" and "y" share a file in the program.
- JsonFile.Open: every non-regular path fails with "is a directory". On Linux `OpenFile` with `O_RDWR` would succeed on a FIFO or a device; only a directory is refused that way.
- JsonFile.Close: does not model an operating-system failure of `Close` other than closing twice.
- JsonFile.Attached: a session file unlinked or replaced while held open is out of scope, because the model has no inodes.
- Core.IsExpired: Go's nanosecond `time.Duration` arithmetic is whole seconds here. Overflow of a lifetime beyond about 292 years is not modelled.
- Core.CanBeRefreshed: the same whole-second arithmetic; overflow of the refresh lifetime's `time.Duration` is not modelled either.
- Service.Create: a provider that returns (nil, nil) is not modelled, because `Core.Provider.create` yields a session or an error.
- Service.LoadRefresh: the write-back is the record-level `Write`, which stores the refreshed session. The code's byte-level write after `Read` leaves an undecodable file instead (see Findings).
- Service.LoadRefreshWritesBackOnlyRefreshed: its clause on the stored record after a write-back holds for the record-level `Write` only, for the reason given under Findings.
- Service.Refresh: the clock is one `now` per command invocation. The Go code reads it afresh in each predicate.
- Strings.TrimSpace: trims a sequence of code points. Go trims UTF-8 bytes, and an invalid byte decodes as U+FFFD (not space), so invalid UTF-8 is not modelled.
- Cmd.ParseLogin: `fmt.Scanln` reads one whitespace-delimited token, and `terminal.ReadPassword` reads raw bytes. Both are abstracted as the string the user types.
- Printing: the messages `Login` and `Logout` print on success are not modelled.
- Command glue: cobra wiring, `cmd/root.go` error formatting and exit codes, the `logout` command's own name defaulting, the parent commands, and the user and group commands (all `panic("not implemented")`).

=== FILE: cli.dfy ===
/**
  The CLI layer (package `cli`): each command builds a fresh JSON-file
  repository and the Keycloak provider, wires them into the session service
  and runs one service call (Login) or two (Logout). Printing the outcome is
  left out; the command's result is its error and the store afterwards.
 */
module Cli {
  import opened Errors
  import opened Core
  import opened Trace
  import JsonFile
  import Keycloak
  import Service

  /** What one command invocation runs against: the cache-directory lookups,
      the clock, URL parsing, OS faults and the identity provider. */
  datatype Env = Env(
    host: JsonFile.Host,
    now: Time,
    isRequestURI: string -> bool,
    faults: Service.IoFaults,
    server: Keycloak.Server)

  /** The session service as the commands build it: Keycloak as provider. */
  function WorldOf(env: Env): (w: Service.World)
    ensures w.host == env.host && w.now == env.now && w.faults == env.faults
    ensures w.isRequestURI == env.isRequestURI
    ensures forall req :: w.provider.create(req) == Keycloak.CreateFor(env.server, env.now, req)
    ensures forall s :: w.provider.refresh(s) == Keycloak.Refresh(env.server, env.now, s)
    ensures forall s :: w.provider.end(s) == Keycloak.End(env.server, s)
  {
    Service.World(env.host, env.now, env.isRequestURI, env.faults, Keycloak.ProviderFor(env.server, env.now))
  }

  /** A command's error, the file system it leaves, and its calls. */
  datatype Run = Run(err: Option<Error>, fs: JsonFile.FileSystem, trace: seq<Event>)

  /** The login request `Login` sends: a non-empty secret key selects the
      client-secret grant, otherwise the user's password grant. */
  function RequestFor(name: string, url: string, realm: string, clientID: string, secretKey: string,
                      user: string, password: string, skipVerify: bool): LoginRequest
  {
    var credentials := if secretKey != [] then ClientSecret(secretKey) else UsernamePassword(user, password);
    LoginRequest(name, url, realm, clientID, credentials, skipVerify)
  }

  /** The token request that reaches Keycloak for that login. */
  function TokenCallFor(url: string, realm: string, clientID: string, secretKey: string,
                        user: string, password: string, skipVerify: bool): Keycloak.TokenCall
  {
    var options :=
      if secretKey != [] then Keycloak.ClientSecretOptions(clientID, secretKey)
      else Keycloak.PasswordOptions(clientID, user, password);
    Keycloak.TokenCall(url, skipVerify, realm, options)
  }

  /** `Login`: one service login with the grant the secret key selects; the
      service's error comes back as it is. */
  function Login(env: Env, fs: JsonFile.FileSystem, name: string, url: string, realm: string, clientID: string,
                 secretKey: string, user: string, password: string, skipVerify: bool): (out: Run)
    ensures forall e | e in out.trace && e.ProviderCreate? ::
      e.request == RequestFor(name, url, realm, clientID, secretKey, user, password, skipVerify)
    ensures secretKey != [] ==>
      RequestFor(name, url, realm, clientID, secretKey, user, password, skipVerify).credentials == ClientSecret(secretKey)
    ensures secretKey == [] ==>
      RequestFor(name, url, realm, clientID, secretKey, user, password, skipVerify).credentials == UsernamePassword(user, password)
    ensures out.err.Some? ==>
      out.err.value.FailedToOpenRepository? || out.err.value.FailedToLogin? || out.err.value.FailedToWriteSession?
    ensures var c := Service.Create(WorldOf(env), JsonFile.NewRepo(fs),
                                    RequestFor(name, url, realm, clientID, secretKey, user, password, skipVerify));
      && out.err == (if c.result.Err? then Some(c.result.error) else None)
      && out.fs == c.repo.fs
  {
    var w := WorldOf(env);
    var repo := JsonFile.NewRepo(fs);
    var created :=
      if secretKey != [] then Service.CreateWithClientSecret(w, repo, name, url, realm, clientID, secretKey, skipVerify)
      else Service.CreateWithUsernamePassword(w, repo, name, url, realm, clientID, user, password, skipVerify);
    assert created == Service.Create(w, repo, RequestFor(name, url, realm, clientID, secretKey, user, password, skipVerify));
    Run(if created.result.Err? then Some(created.result.error) else None, created.repo.fs, created.trace)
  }

  /** Login succeeds exactly when the file opens, Keycloak issues a token for
      the selected grant and the write goes through; the stored session then
      carries the command's arguments, that token, and the instant of login. */
  lemma LoginStoresIssuedSession(env: Env, fs: JsonFile.FileSystem, name: string, url: string, realm: string,
                                 clientID: string, secretKey: string, user: string, password: string, skipVerify: bool)
    ensures var out := Login(env, fs, name, url, realm, clientID, secretKey, user, password, skipVerify);
      var reply := env.server.getToken(TokenCallFor(url, realm, clientID, secretKey, user, password, skipVerify));
      && (out.err.None? <==>
            && env.faults.mkdir.None? && env.faults.open.None? && env.faults.write.None?
            && JsonFile.CheckFile(fs, JsonFile.PathFromName(env.host, name)).err.None?
            && reply.Ok?)
      && (out.err.None? ==>
            JsonFile.Stored(out.fs, JsonFile.PathFromName(env.host, name))
              == Some(Session(name, url, realm, clientID, reply.value, env.now, skipVerify)))
  {
    var req := RequestFor(name, url, realm, clientID, secretKey, user, password, skipVerify);
    var c := Service.Create(WorldOf(env), JsonFile.NewRepo(fs), req);
    assert WorldOf(env).provider.create(req) == Keycloak.CreateFor(env.server, env.now, req);
  }

  /** Exactly one login is attempted per invocation: the trace is that of
      one service `create`, which starts with its Open. */
  lemma LoginCreatesOnce(env: Env, fs: JsonFile.FileSystem, name: string, url: string, realm: string,
                         clientID: string, secretKey: string, user: string, password: string, skipVerify: bool)
    ensures var out := Login(env, fs, name, url, realm, clientID, secretKey, user, password, skipVerify);
      var req := RequestFor(name, url, realm, clientID, secretKey, user, password, skipVerify);
      && out.trace == Service.Create(WorldOf(env), JsonFile.NewRepo(fs), req).trace
      && multiset(out.trace)[ProviderCreate(req)] <= 1
      && out.trace[0] in {Open(name, true), Open(name, false)}
  {
    var req := RequestFor(name, url, realm, clientID, secretKey, user, password, skipVerify);
    Service.CreateHoldsOneLock(WorldOf(env), JsonFile.NewRepo(fs), req);
    Service.CreateShape(WorldOf(env), JsonFile.NewRepo(fs), req);
  }

  /** `Logout`: Load, then End with `force` as given; each step's error is
      wrapped with the step that failed. */
  function Logout(env: Env, fs: JsonFile.FileSystem, name: string, force: bool): (out: Run)
    ensures var loaded := Service.Loadable(WorldOf(env), JsonFile.NewRepo(fs), name);
      && (loaded.None? ==>
            && out.err.Some? && out.err.value.FailedToLoadSession?
            && out.fs == fs
            && forall e | e in out.trace :: !e.Remove? && !e.ProviderEnd?)
      && (loaded.Some? && out.err.Some? ==> out.err.value.FailedToEndSession?)
      && (out.err.None? ==>
            loaded.Some? && !JsonFile.IsRegularFile(out.fs, JsonFile.PathFromName(env.host, loaded.value.name)))
    ensures var l := Service.Load(WorldOf(env), JsonFile.NewRepo(fs), name);
      && (l.result.Err? ==> out.err == Some(FailedToLoadSession(l.result.error)))
      && (l.result.Ok? ==>
            var e := Service.End(WorldOf(env), l.repo, l.result.value, force);
            out.err == (if e.err.Some? then Some(FailedToEndSession(e.err.value)) else None))
  {
    var w := WorldOf(env);
    var loaded := Service.Load(w, JsonFile.NewRepo(fs), name);
    match loaded.result
    case Err(e) => Run(Some(FailedToLoadSession(e)), loaded.repo.fs, loaded.trace)
    case Ok(s) =>
      var ended := Service.End(w, loaded.repo, s, force);
      var err := if ended.err.Some? then Some(FailedToEndSession(ended.err.value)) else None;
      Run(err, ended.repo.fs, loaded.trace + ended.trace)
  }

  /** Logout reaches the provider only for a session that loads and whose
      refresh window (as the code tests it) has closed; `force` makes the
      removal happen whatever the provider answers. */
  lemma LogoutEndsLoadedSession(env: Env, fs: JsonFile.FileSystem, name: string, force: bool)
    requires Service.Loadable(WorldOf(env), JsonFile.NewRepo(fs), name).Some?
    ensures var s := Service.Loadable(WorldOf(env), JsonFile.NewRepo(fs), name).value;
      var out := Logout(env, fs, name, force);
      && (ProviderEnd(s) in out.trace <==> CanBeRefreshed(s, env.now))
      && (force ==> Remove(s.name) in out.trace)
      && (Remove(s.name) in out.trace <==>
            force || !CanBeRefreshed(s, env.now) || Keycloak.End(env.server, s).None?)
  {
    var w := WorldOf(env);
    var s := Service.Loadable(w, JsonFile.NewRepo(fs), name).value;
    var loaded := Service.Load(w, JsonFile.NewRepo(fs), name);
    Service.LoadOnlyReads(w, JsonFile.NewRepo(fs), name);
    var ended := Service.End(w, loaded.repo, s, force);
    assert Logout(env, fs, name, force).trace == loaded.trace + ended.trace;
  }

  /** End's "invalid session" branch is unreachable from Logout: every
      Remove that Logout makes is of a session that passed Load's validity
      check, so a stored session that is invalid cannot be removed by
      logging out, with or without `force`. */
  lemma LogoutCannotRemoveInvalidSession(env: Env, fs: JsonFile.FileSystem, name: string, force: bool, s: Session)
    requires JsonFile.Stored(fs, JsonFile.PathFromName(env.host, name)) == Some(s)
    requires !IsValid(s, env.now, env.isRequestURI)
    ensures var out := Logout(env, fs, name, force);
      out.err.Some? && out.fs == fs && forall e | e in out.trace :: !e.Remove?
  {
  }

  /** A password login as "work" against a server that issues a Bearer
      token with 300 s / 1800 s lifetimes, as the code computes it: the
      stored session is valid, at the instant of login it reads as expired
      (live again 300 seconds later, when it has in fact expired), so a
      LoadRefresh right after login reports it as expired. */
  lemma WorkLoginScenario(env: Env, fs: JsonFile.FileSystem)
    requires env.faults == Service.IoFaults(None, None, None, None, None)
    requires JsonFile.PathFromName(env.host, "work") !in fs
    requires env.now != ZeroTime
    requires env.isRequestURI("https://idp.example/")
    requires env.server.getToken(TokenCallFor("https://idp.example/", "master", "admin-cli", "", "bob", "secret", false))
             == Ok(Jwt("A", 300, 1800, "R", "Bearer"))
    ensures var out := Login(env, fs, "work", "https://idp.example/", "master", "admin-cli", "", "bob", "secret", false);
      var s := Session("work", "https://idp.example/", "master", "admin-cli", Jwt("A", 300, 1800, "R", "Bearer"), env.now, false);
      && out.err.None?
      && JsonFile.Stored(out.fs, JsonFile.PathFromName(env.host, "work")) == Some(s)
      && IsValid(s, env.now, env.isRequestURI)
      && IsExpired(s, false, env.now)
      && !IsExpired(s, false, env.now + 300)
      && Service.LoadRefresh(WorldOf(env), JsonFile.NewRepo(out.fs), "work", false).result == Err(ExpiredSession("work"))
  {
    var out := Login(env, fs, "work", "https://idp.example/", "master", "admin-cli", "", "bob", "secret", false);
    LoginStoresIssuedSession(env, fs, "work", "https://idp.example/", "master", "admin-cli", "", "bob", "secret", false);
    var s := Session("work", "https://idp.example/", "master", "admin-cli", Jwt("A", 300, 1800, "R", "Bearer"), env.now, false);
    assert Service.Loadable(WorldOf(env), JsonFile.NewRepo(out.fs), "work") == Some(s);
    Service.RefreshOfFreshSessionReportsExpired(WorldOf(env), s, false);
  }
}

=== FILE: cmd.dfy ===
/**
  The `login` command (package `cmd`): turns the positional arguments and
  flags into the arguments of the CLI's Login, asking on the terminal for
  what is missing. The terminal is abstracted to the text the user would
  type at each prompt; which prompts are shown is part of the result.
 */
module Cmd {
  import opened Errors
  import opened Strings
  import JsonFile
  import Cli

  const DefaultSessionName: string := "keycloak"

  /** The command's flags, after cobra has filled in the defaults. */
  datatype Flags = Flags(
    url: string,
    realm: string,
    user: string,
    password: string,
    secretKey: string,
    skipVerify: bool,
    clientID: string)

  /** The flag defaults the command registers. */
  const DefaultFlags: Flags := Flags("", "master", "", "", "", false, "admin-cli")

  /** What the user types at each prompt. */
  datatype Terminal = Terminal(url: string, user: string, password: string)

  /** Which of the three prompts (URL, user, password, asked in that order)
      the command shows. */
  datatype Asked = Asked(url: bool, user: bool, password: bool)

  /** The arguments passed on to the CLI's Login. */
  datatype LoginArgs = LoginArgs(
    name: string,
    url: string,
    realm: string,
    clientID: string,
    secretKey: string,
    user: string,
    password: string,
    skipVerify: bool)

  /** The parsed arguments or the error, and the prompts shown on the way. */
  datatype Parsed = Parsed(result: Result<LoginArgs>, asked: Asked)

  /** The session name: the positional argument, or "keycloak", trimmed. */
  function SessionName(args: seq<string>): (name: string)
    requires |args| <= 1
    ensures Trimmed(name)
    ensures |args| == 0 ==> name == DefaultSessionName
    ensures |args| == 1 ==> name == TrimSpace(args[0])
  {
    TrimSpace(if |args| > 0 then args[0] else DefaultSessionName)
  }

  /** The URL trimmed and ending in exactly the "/" it had or one added. */
  function NormalizeURL(url: string): (r: string)
    ensures HasSuffix(r, "/")
    ensures r == TrimSpace(url) || r == TrimSpace(url) + "/"
    ensures HasSuffix(TrimSpace(url), "/") ==> r == TrimSpace(url)
  {
    var u := TrimSpace(url);
    if HasSuffix(u, "/") then u else u + "/"
  }

  /** A normalised URL is its own normalisation. */
  lemma NormalizeURLIdempotent(url: string)
    ensures NormalizeURL(NormalizeURL(url)) == NormalizeURL(url)
  {
    var r := NormalizeURL(url);
    var u := TrimSpace(url);
    assert r[|r| - 1] == '/';
    if u != [] {
      assert r[0] == u[0];
    }
    assert Trimmed(r);
    TrimmedIsFixedPoint(r);
  }

  /** The command's argument handling up to the Login call. */
  function ParseLogin(args: seq<string>, flags: Flags, term: Terminal): (p: Parsed)
    ensures |args| > 1 ==> p == Parsed(Err(TooManyArgs(|args|)), Asked(false, false, false))
    ensures |args| <= 1 && TrimSpace(flags.realm) == [] ==> p.result == Err(RealmEmpty)
    ensures |args| <= 1 && TrimSpace(flags.realm) != [] ==> p.result.Ok?
    ensures p.result.Ok? ==>
      var a := p.result.value;
      && |args| <= 1
      && a.name == SessionName(args)
      && a.url == NormalizeURL(if flags.url == [] then term.url else flags.url)
      && a.realm == TrimSpace(flags.realm) && a.realm != []
      && a.clientID == TrimSpace(flags.clientID)
      && a.secretKey == TrimSpace(flags.secretKey)
      && a.skipVerify == flags.skipVerify
      && a.user == (if p.asked.user then term.user else TrimSpace(flags.user))
      && a.password == (if p.asked.password then term.password else flags.password)
    ensures p.asked.url <==> |args| <= 1 && flags.url == []
    ensures p.asked.user <==>
      && |args| <= 1 && TrimSpace(flags.realm) != []
      && TrimSpace(flags.secretKey) == [] && TrimSpace(flags.user) == []
    ensures p.asked.password <==>
      && |args| <= 1 && TrimSpace(flags.realm) != []
      && TrimSpace(flags.secretKey) == [] && flags.password == []
  {
    if |args| > 1 then Parsed(Err(TooManyArgs(|args|)), Asked(false, false, false))
    else
      var name := SessionName(args);
      var askURL := flags.url == [];
      var url := NormalizeURL(if askURL then term.url else flags.url);
      var realm := TrimSpace(flags.realm);
      if realm == [] then Parsed(Err(RealmEmpty), Asked(askURL, false, false))
      else
        var secretKey := TrimSpace(flags.secretKey);
        var flagUser := TrimSpace(flags.user);
        var askUser := secretKey == [] && flagUser == [];
        var askPassword := secretKey == [] && flags.password == [];
        var user := if askUser then term.user else flagUser;
        var password := if askPassword then term.password else flags.password;
        Parsed(Ok(LoginArgs(name, url, realm, TrimSpace(flags.clientID), secretKey, user, password, flags.skipVerify)),
               Asked(askURL, askUser, askPassword))
  }

  /** With a secret key nothing but (at most) the URL is asked for, and the
      password flag reaches Login untrimmed. */
  lemma SecretKeySkipsCredentialPrompts(args: seq<string>, flags: Flags, term: Terminal)
    requires TrimSpace(flags.secretKey) != []
    ensures var p := ParseLogin(args, flags, term);
      && !p.asked.user && !p.asked.password
      && (p.result.Ok? ==> p.result.value.password == flags.password && p.result.value.user == TrimSpace(flags.user))
  {
  }

  /** The login command: parse, then run the CLI's Login; a parse error
      returns before any repository or provider call. */
  function RunLogin(env: Cli.Env, fs: JsonFile.FileSystem, args: seq<string>, flags: Flags, term: Terminal)
    : (out: Cli.Run)
    ensures ParseLogin(args, flags, term).result.Err? ==>
      out == Cli.Run(Some(ParseLogin(args, flags, term).result.error), fs, [])
    ensures |args| <= 1 && TrimSpace(flags.realm) == [] ==> out == Cli.Run(Some(RealmEmpty), fs, [])
    ensures ParseLogin(args, flags, term).result.Ok? ==>
      var a := ParseLogin(args, flags, term).result.value;
      out == Cli.Login(env, fs, a.name, a.url, a.realm, a.clientID, a.secretKey, a.user, a.password, a.skipVerify)
  {
    match ParseLogin(args, flags, term).result
    case Err(e) => Cli.Run(Some(e), fs, [])
    case Ok(a) => Cli.Login(env, fs, a.name, a.url, a.realm, a.clientID, a.secretKey, a.user, a.password, a.skipVerify)
  }

  /** With only the defaults and a typed URL, user and password, the command
      logs into realm "master" as client "admin-cli" under the session name
      "keycloak", with certificate checks on. */
  lemma DefaultLoginArguments(term: Terminal)
    ensures var p := ParseLogin([], DefaultFlags, term);
      && p.asked == Asked(true, true, true)
      && p.result == Ok(LoginArgs("keycloak", NormalizeURL(term.url), "master", "admin-cli", "", term.user, term.password, false))
  {
    // The default name and flag values come through trimming unchanged.
    TrimmedIsFixedPoint(DefaultSessionName);
    TrimmedIsFixedPoint(DefaultFlags.realm);
    TrimmedIsFixedPoint(DefaultFlags.clientID);
  }
}

=== FILE: core.dfy ===
/**
  The session entity of package `core`: the cached credential, its three
  predicates, and the request/reply types through which the session service
  talks to a session provider.

  Time is whole seconds since the Unix epoch. The Go code reads the wall clock
  (`jwt.Now()`) inside each predicate; here the instant is the explicit
  parameter `now`. URL parsing (`url.ParseRequestURI`) is the caller-supplied
  predicate `isRequestURI`.
 */
module Core {
  import opened Errors

  type Time = int

  /** Go's zero `time.Time` (0001-01-01T00:00:00Z) in Unix seconds: the value
      an absent `created_at` decodes to. */
  const ZeroTime: Time := -62135596800

  /** How long before the access token's expiry it counts as "expiring soon". */
  const ExpirySoonMargin: int := 60

  const BearerTokenType: string := "Bearer"

  /** The token pair issued by the identity provider (the fields of gocloak's
      JWT that this subsystem reads). Lifetimes are in seconds. */
  datatype Jwt = Jwt(
    accessToken: string,
    expiresIn: int,
    refreshExpiresIn: int,
    refreshToken: string,
    tokenType: string)

  /** One cached login, as stored in the session file. */
  datatype Session = Session(
    name: string,
    url: string,
    realm: string,
    clientID: string,
    token: Jwt,
    created: Time,
    skipVerify: bool)

  function AccessExpiry(s: Session): Time {
    s.created + s.token.expiresIn
  }

  function RefreshExpiry(s: Session): Time {
    s.created + s.token.refreshExpiresIn
  }

  /** The access-token test exactly as the code writes it: each disjunct asks
      whether an expiry instant lies AFTER `now`. The "expires soon" instant is
      earlier than the expiry instant, so it adds nothing, and the result is
      true exactly while the access token is still live. */
  function IsExpired(s: Session, beforeExpiry: bool, now: Time): (r: bool)
    ensures r <==> now < AccessExpiry(s)
  {
    var accessTokenExpired := s.created + s.token.expiresIn > now;
    var accessTokenExpiresSoon := s.created + (s.token.expiresIn - ExpirySoonMargin) > now;
    accessTokenExpired || (beforeExpiry && accessTokenExpiresSoon)
  }

  /** The refresh-token test exactly as the code writes it: negation of "the
      refresh expiry lies after `now`", so it holds once the refresh window has
      closed and stays true from then on. */
  function CanBeRefreshed(s: Session, now: Time): (r: bool)
    ensures r <==> RefreshExpiry(s) <= now
  {
    var refreshTokenExpired := s.created + s.token.refreshExpiresIn > now;
    !refreshTokenExpired
  }

  /** Structural well-formedness of a stored session. Expiry plays no part. */
  function IsValid(s: Session, now: Time, isRequestURI: string -> bool): (r: bool)
    ensures s.token.tokenType != BearerTokenType ==> !r
    ensures s.url == [] || s.realm == [] || s.clientID == [] ==> !r
    ensures s.token.accessToken == [] || s.token.refreshToken == [] ==> !r
    ensures s.token.expiresIn <= 0 || s.token.refreshExpiresIn <= 0 ==> !r
    ensures s.created == ZeroTime || s.created > now ==> !r
    ensures !isRequestURI(s.url) ==> !r
    ensures && isRequestURI(s.url) && s.url != [] && s.realm != [] && s.clientID != []
            && s.token.accessToken != [] && s.token.refreshToken != []
            && s.token.expiresIn > 0 && s.token.refreshExpiresIn > 0
            && s.created != ZeroTime && s.created <= now
            && s.token.tokenType == BearerTokenType
            ==> r
  {
    && isRequestURI(s.url)
    && s.url != []
    && s.realm != []
    && s.clientID != []
    && s.created != ZeroTime
    && !(s.created > now)
    && !(s.token.expiresIn <= 0)
    && !(s.token.refreshExpiresIn <= 0)
    && s.token.accessToken != []
    && s.token.refreshToken != []
    && s.token.tokenType == BearerTokenType
  }

  /** Validity never depends on expiry: a session valid at `now` stays valid at
      every later instant, however long ago its tokens expired. */
  lemma ValidityOutlivesExpiry(s: Session, now: Time, later: Time, isRequestURI: string -> bool)
    requires IsValid(s, now, isRequestURI)
    requires now <= later
    ensures IsValid(s, later, isRequestURI)
  {
  }

  /** A session whose token was issued at `now` counts as expired and cannot
      be refreshed: the opposite of what a fresh login should report. */
  lemma FreshSessionReadsAsExpiredAndUnrefreshable(s: Session, now: Time, beforeExpiry: bool)
    requires s.created == now
    requires s.token.expiresIn > 0 && s.token.refreshExpiresIn > 0
    ensures IsExpired(s, beforeExpiry, now)
    ensures !CanBeRefreshed(s, now)
  {
  }

  // ---------------------------------------------------------------------------
  // The provider interface (`SessionProvider`)
  // ---------------------------------------------------------------------------

  /** The two login grants: CreateWithUsernamePassword and CreateWithClientSecret. */
  datatype Credentials =
    | UsernamePassword(user: string, password: string)
    | ClientSecret(secret: string)

  /** The arguments of a provider login call. */
  datatype LoginRequest = LoginRequest(
    name: string,
    url: string,
    realm: string,
    clientID: string,
    credentials: Credentials,
    skipVerify: bool)

  /** The outcome of the provider's `Refresh(session *Session) (bool, error)`:
      the `*Session` the provider may have mutated comes back as `session`. */
  datatype RefreshReply = RefreshReply(refreshed: bool, session: Session, err: Option<Error>)

  /** A session provider, seen as the answers it gives: an oracle per method. */
  datatype Provider = Provider(
    create: LoginRequest -> Result<Session>,
    refresh: Session -> RefreshReply,
    end: Session -> Option<Error>)
}

=== FILE: errors.dfy ===
/**
  Failure-carrying types shared by every layer of the session subsystem, and
  the errors the Go code constructs, one constructor per distinct message.
  Wrapping with `errors.Wrap`/`errors.Wrapf` becomes a constructor holding the
  wrapped error as its `cause`.
 */
module Errors {

  /** Go's nil-able results: `None` stands for nil. */
  datatype Option<+T> = None | Some(value: T)

  /** A Go `(value, error)` pair in which exactly one side is meaningful. */
  datatype Result<+T> = Ok(value: T) | Err(error: Error)

  datatype Error =
    // Leaves: failures reported by the operating system or the network,
    // left uninterpreted.
    | Os(description: string)
    | Net(description: string)
    // jsonfile session repository
    | NotAFile
    | CannotCreateDirectory(path: string, cause: Error)
    | CannotOpen(path: string, cause: Error)
    | CannotClose(name: string, cause: Error)
    | CannotRead(name: string, cause: Error)
    | CannotDecode(name: string)
    | CannotWrite(name: string, cause: Error)
    | CannotRemove(path: string, cause: Error)
    // keycloak session provider
    | FailedToGetToken(cause: Error)
    | FailedToLogoutAtProvider(cause: Error)
    | FailedToRefreshToken(cause: Error)
    // session service
    | DoesNotExist(name: string)
    | FailedToRetrieve(name: string, cause: Error)
    | InvalidSession(name: string)
    | ExpiredSession(name: string)
    | FailedToRefresh(name: string, cause: Error)
    | FailedToWriteRepository(name: string, cause: Error)
    | FailedToOpenRepository(name: string, cause: Error)
    | FailedToLogin(name: string, cause: Error)
    | FailedToWriteSession(name: string, cause: Error)
    | FailedToEnd(name: string, cause: Error)
    // command line
    | FailedToLoadSession(cause: Error)
    | FailedToEndSession(cause: Error)
    | RealmEmpty
    | TooManyArgs(received: nat)

  /** What an operation on an already closed file reports. */
  const ErrClosed: Error := Os("file already closed")

  /** What opening a path that is not a regular file for read/write reports. */
  const ErrIsDirectory: Error := Os("is a directory")
}

=== FILE: jsonfile.dfy ===
/**
  The JSON-file session repository (package `jsonfile`): one file per session
  name under the user's cache directory, opened with an exclusive lock.

  The file system is an abstract map from path to node. A node is a regular
  file holding an abstract content (the JSON bytes are not modelled: a file is
  empty, holds the encoding of a session, or holds something that does not
  decode), a path that exists but is not a regular file, or a path whose
  `os.Stat` fails for a reason other than "not found". Failures of the
  operating system that the store itself does not determine (creating the
  directory, opening, reading, writing, removing) are passed in as faults.
  The lock is the handle's open/closed flag.
 */
module JsonFile {
  import opened Errors
  import opened Core

  // ---------------------------------------------------------------------------
  // Paths
  // ---------------------------------------------------------------------------

  /** The two directory lookups `PathFromName` depends on: `os.UserCacheDir()`
      (None when it fails) and `os.TempDir()`. */
  datatype Host = Host(userCacheDir: Option<string>, tempDir: string)

  const AppDirectory: string := "keycli"
  const TokensDirectory: string := "tokens"
  const FileSuffix: string := ".json"

  function CacheDir(h: Host): string {
    match h.userCacheDir
    case Some(dir) => dir
    case None => h.tempDir
  }

  /** `filepath.Join(dir, rest)` for a non-empty `rest`: an empty `dir` is
      skipped, otherwise the two are joined by a separator. Lexical cleaning
      is not modelled. */
  function Join(dir: string, rest: string): string {
    if dir == [] then rest else dir + "/" + rest
  }

  /** The part of every session path that does not depend on the name. */
  function TokensPrefix(h: Host): string {
    Join(CacheDir(h), AppDirectory + "/" + TokensDirectory + "/")
  }

  /** `<cache dir>/keycli/tokens/<name>.json`. */
  function PathFromName(h: Host, name: string): (p: string)
    ensures p == TokensPrefix(h) + name + FileSuffix
    ensures |p| == |TokensPrefix(h)| + |name| + |FileSuffix|
  {
    var p := Join(CacheDir(h), AppDirectory + "/" + TokensDirectory + "/" + name + FileSuffix);
    assert p == TokensPrefix(h) + name + FileSuffix;
    p
  }

  /** Distinct session names never share a file. */
  lemma PathFromNameInjective(h: Host, a: string, b: string)
    requires PathFromName(h, a) == PathFromName(h, b)
    ensures a == b
  {
    var prefix := TokensPrefix(h);
    var p := PathFromName(h, a);
    assert |a| == |b|;
    assert a == p[|prefix|..|prefix| + |a|];
    assert b == p[|prefix|..|prefix| + |b|];
  }

  // ---------------------------------------------------------------------------
  // The store
  // ---------------------------------------------------------------------------

  datatype Content = Empty | Encoded(session: Session) | Malformed

  datatype Node =
    | RegularFile(content: Content)
    | NonRegular
    | Unstatable(err: Error)

  type FileSystem = map<string, Node>

  /** An open `lockedfile.File`: the path it was opened on and whether Close
      has run on it (which releases the lock). */
  datatype LockedFile = LockedFile(path: string, closed: bool)

  /** `jsonfileSessionRepository`: the file system it works on, the handle
      field `lFile` (None for nil) and the field the source calls `path`,
      which holds the session NAME and only appears in error messages. */
  datatype Repo = Repo(fs: FileSystem, lFile: Option<LockedFile>, openedName: string)

  /** `NewJSONFileSessionRepository`: nothing open yet. */
  function NewRepo(fs: FileSystem): (r: Repo)
    ensures r.lFile.None? && r.fs == fs
  {
    Repo(fs, None, "")
  }

  predicate IsRegularFile(fs: FileSystem, p: string) {
    p in fs && fs[p].RegularFile?
  }

  /** The session a path holds, if it is a regular file that decodes. */
  function Stored(fs: FileSystem, p: string): Option<Session> {
    if p in fs && fs[p].RegularFile? && fs[p].content.Encoded? then Some(fs[p].content.session) else None
  }

  /** The file systems agree on every path except `p`. */
  ghost predicate SameElsewhere(fs1: FileSystem, fs2: FileSystem, p: string) {
    forall q :: q != p ==> (q in fs1 <==> q in fs2) && (q in fs1 ==> fs1[q] == fs2[q])
  }

  /** The held handle still refers to a regular file at its path. The model
      has no inodes, so a file unlinked or replaced while held open is out of
      scope; every caller in the subsystem keeps this. */
  predicate Attached(repo: Repo) {
    repo.lFile.Some? && (repo.lFile.value.closed || IsRegularFile(repo.fs, repo.lFile.value.path))
  }

  /** Result of an operation returning only an error, with the new store. */
  datatype Step = Step(err: Option<Error>, repo: Repo)

  /** `checkFile`'s two results. */
  datatype Check = Check(found: bool, err: Option<Error>)

  /** `checkFile`: a missing path is "does not exist" without error, any other
      stat failure is "does not exist" WITH that error, an existing path that
      is not a regular file "exists" with the error "not a file". */
  function CheckFile(fs: FileSystem, path: string): (c: Check)
    ensures c.found <==> path in fs && !fs[path].Unstatable?
    ensures c.err.None? <==> path !in fs || fs[path].RegularFile?
    ensures c.found && c.err.Some? ==> c.err == Some(NotAFile)
    ensures !c.found && c.err.Some? ==> c.err == Some(fs[path].err)
  {
    if path !in fs then Check(false, None)
    else match fs[path]
      case Unstatable(e) => Check(false, Some(e))
      case NonRegular => Check(true, Some(NotAFile))
      case RegularFile(_) => Check(true, None)
  }

  /** `Exists`: `checkFile` on the session's path; no lock is taken. */
  function Exists(h: Host, repo: Repo, name: string): (c: Check)
    ensures c.found && c.err.None? <==> IsRegularFile(repo.fs, PathFromName(h, name))
    ensures !c.found ==> PathFromName(h, name) !in repo.fs || repo.fs[PathFromName(h, name)].Unstatable?
  {
    CheckFile(repo.fs, PathFromName(h, name))
  }

  /** `Open`: creates the directory, then opens (creating if absent) and locks
      the session file. It does not look at a handle already held: a second
      Open replaces it. */
  function Open(h: Host, repo: Repo, name: string, mkdirFault: Option<Error>, openFault: Option<Error>): (out: Step)
    ensures var p := PathFromName(h, name);
      out.err.None? <==> mkdirFault.None? && openFault.None? && (p !in repo.fs || repo.fs[p].RegularFile?)
    ensures out.err.Some? ==> out.repo == repo
    ensures var p := PathFromName(h, name);
      out.err.None? ==>
        && out.repo.lFile == Some(LockedFile(p, false))
        && out.repo.openedName == name
        && IsRegularFile(out.repo.fs, p)
        && Attached(out.repo)
        && Stored(out.repo.fs, p) == Stored(repo.fs, p)
        && (p !in repo.fs ==> out.repo.fs[p] == RegularFile(Empty))
        && (p in repo.fs ==> out.repo.fs == repo.fs)
        && SameElsewhere(out.repo.fs, repo.fs, p)
  {
    var p := PathFromName(h, name);
    if mkdirFault.Some? then
      Step(Some(CannotCreateDirectory(p, mkdirFault.value)), repo)
    else if openFault.Some? then
      Step(Some(CannotOpen(p, openFault.value)), repo)
    else if p in repo.fs && repo.fs[p].NonRegular? then
      Step(Some(CannotOpen(p, ErrIsDirectory)), repo)
    else if p in repo.fs && repo.fs[p].Unstatable? then
      Step(Some(CannotOpen(p, repo.fs[p].err)), repo)
    else
      var fs := if p in repo.fs then repo.fs else repo.fs[p := RegularFile(Empty)];
      Step(None, Repo(fs, Some(LockedFile(p, false)), name))
  }

  /** `Close`: a no-op when nothing was ever opened; otherwise closes the
      handle, which stays in the repository (it is not reset to nil), so a
      second Close reports the file as already closed. */
  function Close(repo: Repo): (out: Step)
    ensures repo.lFile.None? ==> out == Step(None, repo)
    ensures out.repo.fs == repo.fs && out.repo.openedName == repo.openedName
    ensures repo.lFile.Some? ==> out.repo.lFile == Some(repo.lFile.value.(closed := true))
    ensures out.err.Some? <==> repo.lFile.Some? && repo.lFile.value.closed
    ensures Attached(repo) ==> Attached(out.repo)
  {
    match repo.lFile
    case None => Step(None, repo)
    case Some(f) =>
      if f.closed then Step(Some(CannotClose(repo.openedName, ErrClosed)), repo)
      else Step(None, repo.(lFile := Some(f.(closed := true))))
  }

  /** JSON decoding of a whole file: an empty file is an error too
      (`json.Unmarshal` rejects empty input). */
  function Decode(name: string, c: Content): (r: Result<Session>)
    ensures r.Ok? <==> c.Encoded?
    ensures r.Ok? ==> r.value == c.session
    ensures r.Err? ==> r.error == CannotDecode(name)
  {
    match c
    case Encoded(s) => Ok(s)
    case _ => Err(CannotDecode(name))
  }

  /** `Read`: the session stored in the held file. Without a handle the
      source panics; that is this function's first precondition. */
  function Read(repo: Repo, fault: Option<Error>): (r: Result<Session>)
    requires repo.lFile.Some?
    requires Attached(repo)
    ensures r.Ok? <==> !repo.lFile.value.closed && fault.None? && Stored(repo.fs, repo.lFile.value.path).Some?
    ensures r.Ok? ==> Stored(repo.fs, repo.lFile.value.path) == Some(r.value)
    ensures !repo.lFile.value.closed && fault.None? && repo.fs[repo.lFile.value.path].content.Empty? ==>
      r == Err(CannotDecode(repo.openedName))
  {
    var f := repo.lFile.value;
    if f.closed then Err(CannotRead(repo.openedName, ErrClosed))
    else if fault.Some? then Err(CannotRead(repo.openedName, fault.value))
    else Decode(repo.openedName, repo.fs[f.path].content)
  }

  /** `Write`, at the level of the stored record: a nil session changes
      nothing; otherwise the held file's previous content is discarded and,
      if the write itself succeeds, replaced by the session. Nothing else in
      the store changes. Without a handle the source panics. */
  function Write(repo: Repo, s: Option<Session>, fault: Option<Error>): (out: Step)
    requires repo.lFile.Some?
    requires Attached(repo)
    ensures s.None? ==> out == Step(None, repo)
    ensures out.repo.lFile == repo.lFile && out.repo.openedName == repo.openedName
    ensures Attached(out.repo)
    ensures SameElsewhere(out.repo.fs, repo.fs, repo.lFile.value.path)
    ensures out.err.None? <==> s.None? || (!repo.lFile.value.closed && fault.None?)
    ensures out.err.None? && s.Some? ==> Stored(out.repo.fs, repo.lFile.value.path) == s
    ensures out.err.Some? && !repo.lFile.value.closed ==>
      out.repo.fs[repo.lFile.value.path] == RegularFile(Empty)
    ensures out.err.Some? && repo.lFile.value.closed ==> out.repo == repo
  {
    var f := repo.lFile.value;
    if s.None? then Step(None, repo)
    else if f.closed then Step(Some(CannotWrite(repo.openedName, ErrClosed)), repo)
    else if fault.Some? then
      Step(Some(CannotWrite(repo.openedName, fault.value)), repo.(fs := repo.fs[f.path := RegularFile(Empty)]))
    else
      Step(None, repo.(fs := repo.fs[f.path := RegularFile(Encoded(s.value))]))
  }

  /** `Remove`: works on the path directly, without the lock. Whatever
      `checkFile` reports as not existing, including a path whose stat fails,
      is left alone without error; an existing non-regular path is an error
      and is left alone too. */
  function Remove(h: Host, repo: Repo, name: string, fault: Option<Error>): (out: Step)
    ensures out.repo.lFile == repo.lFile && out.repo.openedName == repo.openedName
    ensures var p := PathFromName(h, name);
      out.repo.fs == repo.fs || (IsRegularFile(repo.fs, p) && out.repo.fs == repo.fs - {p})
    ensures var p := PathFromName(h, name);
      out.repo.fs != repo.fs <==> IsRegularFile(repo.fs, p) && fault.None?
    ensures var p := PathFromName(h, name);
      p !in repo.fs || repo.fs[p].Unstatable? ==> out.err.None?
    ensures var p := PathFromName(h, name);
      p in repo.fs && repo.fs[p].NonRegular? ==> out.err == Some(CannotRemove(p, NotAFile))
    ensures out.err.None? ==> !IsRegularFile(out.repo.fs, PathFromName(h, name))
  {
    var p := PathFromName(h, name);
    var c := CheckFile(repo.fs, p);
    if !c.found then Step(None, repo)
    else if c.err.Some? then Step(Some(CannotRemove(p, c.err.value)), repo)
    else if fault.Some? then Step(Some(CannotRemove(p, fault.value)), repo)
    else Step(None, repo.(fs := repo.fs - {p}))
  }

  /** Record-level round trip: what a successful Write stores, a later Open
      and Read of the same name returns. */
  lemma WriteReopenReadRoundTrip(h: Host, repo: Repo, name: string, s: Session)
    requires repo.lFile == Some(LockedFile(PathFromName(h, name), false))
    requires Attached(repo)
    ensures var w := Write(repo, Some(s), None);
      var c := Close(w.repo);
      var o := Open(h, c.repo, name, None, None);
      && w.err.None? && c.err.None? && o.err.None?
      && Read(o.repo, None) == Ok(s)
  {
    var p := PathFromName(h, name);
    var w := Write(repo, Some(s), None);
    assert Stored(w.repo.fs, p) == Some(s);
    var c := Close(w.repo);
    var o := Open(h, c.repo, name, None, None);
    assert Stored(o.repo.fs, p) == Some(s);
  }

  // ---------------------------------------------------------------------------
  // Write as the source performs it at the byte level
  // ---------------------------------------------------------------------------

  /** Where the handle's file offset sits when Write runs. */
  datatype Offset = AtStart | PastStart

  /** `ioutil.ReadAll` leaves the offset at the end of what it read. */
  function OffsetAfterRead(c: Content): (o: Offset)
    ensures o == AtStart <==> c.Empty?
  {
    if c.Empty? then AtStart else PastStart
  }

  /** The content Write leaves behind as the source performs it:
      `Truncate(0)` does not move the offset, so the encoding is written at
      the old offset behind a run of zero bytes, which JSON decoding
      rejects. Only a write at offset 0 stores the session. */
  function ContentWrittenAt(offset: Offset, s: Session): (c: Content)
    ensures c == Encoded(s) <==> offset == AtStart
    ensures offset == PastStart ==> Decode("", c).Err?
  {
    if offset.AtStart? then Encoded(s) else Malformed
  }

  /** The discrepancy: in one open, a Read of a stored session followed by a
      write of `s` (what LoadRefresh does after a refresh) leaves a file from
      which the next Read decodes nothing, whereas the record-level `Write`
      that the rest of this model uses would have stored `s`. */
  lemma ReadThenWriteLosesTheSession(repo: Repo, s: Session)
    requires repo.lFile.Some? && !repo.lFile.value.closed
    requires Attached(repo)
    requires Read(repo, None).Ok?
    ensures var f := repo.lFile.value;
      var asWritten := ContentWrittenAt(OffsetAfterRead(repo.fs[f.path].content), s);
      && Decode(repo.openedName, asWritten).Err?
      && Stored(Write(repo, Some(s), None).repo.fs, f.path) == Some(s)
  {
    var f := repo.lFile.value;
    assert repo.fs[f.path].content.Encoded?;
  }
}

=== FILE: keycloak.dfy ===
/**
  The Keycloak session provider (package `keycloak`): how it builds the token
  request for each grant, how it turns the issued token into a session, and
  what a refresh changes. The identity provider's endpoints are an oracle
  (`Server`); each call's transport settings (URL, certificate checking) are
  part of the request it answers.
 */
module Keycloak {
  import opened Errors
  import opened Core

  const PasswordGrant: string := "password"
  const ClientCredentialsGrant: string := "client_credentials"
  const RefreshTokenGrant: string := "refresh_token"

  /** The fields of gocloak's TokenOptions this provider sets; None for a
      field left nil. */
  datatype TokenOptions = TokenOptions(
    clientID: string,
    grantType: string,
    username: Option<string>,
    password: Option<string>,
    clientSecret: Option<string>,
    refreshToken: Option<string>)

  /** A GetToken call on a client created for `url` with `skipVerify`. */
  datatype TokenCall = TokenCall(url: string, skipVerify: bool, realm: string, options: TokenOptions)

  /** A Logout call: client ID, client secret, realm and refresh token. */
  datatype LogoutCall = LogoutCall(
    url: string,
    skipVerify: bool,
    clientID: string,
    clientSecret: string,
    realm: string,
    refreshToken: string)

  /** The identity provider: the answer it gives to each call. */
  datatype Server = Server(getToken: TokenCall -> Result<Jwt>, logout: LogoutCall -> Option<Error>)

  /** Token options of `CreateWithUsernamePassword`. */
  function PasswordOptions(clientID: string, user: string, password: string): (o: TokenOptions)
    ensures o.grantType == PasswordGrant && o.clientID == clientID
    ensures o.username == Some(user) && o.password == Some(password)
    ensures o.clientSecret.None? && o.refreshToken.None?
  {
    TokenOptions(clientID, PasswordGrant, Some(user), Some(password), None, None)
  }

  /** Token options of `CreateWithClientSecret`. */
  function ClientSecretOptions(clientID: string, secret: string): (o: TokenOptions)
    ensures o.grantType == ClientCredentialsGrant && o.clientID == clientID
    ensures o.clientSecret == Some(secret)
    ensures o.username.None? && o.password.None? && o.refreshToken.None?
  {
    TokenOptions(clientID, ClientCredentialsGrant, None, None, Some(secret), None)
  }

  /** `create`: requests a token and wraps it in a new session stamped `now`;
      everything but the token and the timestamp comes from the arguments. */
  function Create(server: Server, now: Time, name: string, url: string, realm: string, skipVerify: bool,
                  options: TokenOptions): (r: Result<Session>)
    ensures var reply := server.getToken(TokenCall(url, skipVerify, realm, options));
      && (r.Ok? <==> reply.Ok?)
      && (r.Err? ==> r.error == FailedToGetToken(reply.error))
      && (r.Ok? ==> r.value == Session(name, url, realm, options.clientID, reply.value, now, skipVerify))
  {
    match server.getToken(TokenCall(url, skipVerify, realm, options))
    case Err(e) => Err(FailedToGetToken(e))
    case Ok(token) =>
      Ok(Session(
        name := name, url := url, realm := realm, clientID := options.clientID,
        token := token, created := now, skipVerify := skipVerify))
  }

  /** `CreateWithUsernamePassword`: a password grant with the user's credentials. */
  function CreateWithUsernamePassword(server: Server, now: Time, name: string, url: string, realm: string,
                                      clientID: string, user: string, password: string, skipVerify: bool)
    : (r: Result<Session>)
    ensures var reply := server.getToken(TokenCall(url, skipVerify, realm, PasswordOptions(clientID, user, password)));
      && (r.Ok? <==> reply.Ok?)
      && (r.Ok? ==> r.value == Session(name, url, realm, clientID, reply.value, now, skipVerify))
  {
    Create(server, now, name, url, realm, skipVerify, PasswordOptions(clientID, user, password))
  }

  /** `CreateWithClientSecret`: a client-credentials grant with the secret. */
  function CreateWithClientSecret(server: Server, now: Time, name: string, url: string, realm: string,
                                  clientID: string, secret: string, skipVerify: bool)
    : (r: Result<Session>)
    ensures var reply := server.getToken(TokenCall(url, skipVerify, realm, ClientSecretOptions(clientID, secret)));
      && (r.Ok? <==> reply.Ok?)
      && (r.Ok? ==> r.value == Session(name, url, realm, clientID, reply.value, now, skipVerify))
  {
    Create(server, now, name, url, realm, skipVerify, ClientSecretOptions(clientID, secret))
  }

  /** The logout call `End` sends for a session: its current refresh token,
      with an empty client secret. */
  function LogoutCallFor(s: Session): (c: LogoutCall)
    ensures c.refreshToken == s.token.refreshToken && c.clientSecret == []
    ensures c.url == s.url && c.skipVerify == s.skipVerify && c.clientID == s.clientID && c.realm == s.realm
  {
    LogoutCall(s.url, s.skipVerify, s.clientID, "", s.realm, s.token.refreshToken)
  }

  /** `End`: revokes the session's refresh token; the session itself is not
      touched (it is a value here). */
  function End(server: Server, s: Session): (r: Option<Error>)
    ensures r.None? <==> server.logout(LogoutCallFor(s)).None?
    ensures r.Some? ==> r.value == FailedToLogoutAtProvider(server.logout(LogoutCallFor(s)).value)
  {
    match server.logout(LogoutCallFor(s))
    case Some(e) => Some(FailedToLogoutAtProvider(e))
    case None => None
  }

  /** The refresh-token grant for a session. */
  function RefreshCallFor(s: Session): (c: TokenCall)
    ensures c.options.grantType == RefreshTokenGrant
    ensures c.options.refreshToken == Some(s.token.refreshToken) && c.options.clientID == s.clientID
    ensures c.url == s.url && c.skipVerify == s.skipVerify && c.realm == s.realm
  {
    TokenCall(s.url, s.skipVerify, s.realm,
              TokenOptions(s.clientID, RefreshTokenGrant, None, None, None, Some(s.token.refreshToken)))
  }

  /** `Refresh`: on success the session's token and timestamp are replaced
      and nothing else changes; on failure the session comes back untouched. */
  function Refresh(server: Server, now: Time, s: Session): (r: RefreshReply)
    ensures r.refreshed <==> r.err.None?
    ensures r.err.None? <==> server.getToken(RefreshCallFor(s)).Ok?
    ensures r.err.Some? ==> r.session == s && r.err == Some(FailedToRefreshToken(server.getToken(RefreshCallFor(s)).error))
    ensures r.err.None? ==> r.session.token == server.getToken(RefreshCallFor(s)).value && r.session.created == now
    ensures r.session.(token := s.token, created := s.created) == s
  {
    match server.getToken(RefreshCallFor(s))
    case Err(e) => RefreshReply(false, s, Some(FailedToRefreshToken(e)))
    case Ok(token) => RefreshReply(true, s.(created := now, token := token), None)
  }

  /** Which provider method a login request goes to. */
  function CreateFor(server: Server, now: Time, req: LoginRequest): Result<Session> {
    match req.credentials
    case UsernamePassword(user, password) =>
      CreateWithUsernamePassword(server, now, req.name, req.url, req.realm, req.clientID, user, password, req.skipVerify)
    case ClientSecret(secret) =>
      CreateWithClientSecret(server, now, req.name, req.url, req.realm, req.clientID, secret, req.skipVerify)
  }

  /** The Keycloak provider as the session service sees it, for one
      invocation at instant `now`. */
  function ProviderFor(server: Server, now: Time): (p: Provider)
    ensures forall req :: p.create(req).Ok? ==>
      var s := p.create(req).value;
      && s.name == req.name && s.url == req.url && s.realm == req.realm
      && s.clientID == req.clientID && s.skipVerify == req.skipVerify && s.created == now
    ensures forall s :: p.refresh(s).session.(token := s.token, created := s.created) == s
  {
    Provider(
      req => CreateFor(server, now, req),
      s => Refresh(server, now, s),
      s => End(server, s))
  }
}

=== FILE: service.dfy ===
/**
  The session service (`sessionService` in package `core`): Load,
  LoadRefresh, the two logins through `create`, Refresh and End, over the
  JSON-file repository and an abstract session provider.

  Each operation returns its Go result, the repository afterwards, and the
  trace of the repository and provider calls it made, in order. The deferred
  `Close` of the source appears in the trace where Go runs it: after the
  return value is computed, so after any Write.
 */
module Service {
  import opened Errors
  import opened Core
  import opened Trace
  import JsonFile

  /** The operating-system faults of one invocation, one per repository call
      that can fail for reasons outside the store. */
  datatype IoFaults = IoFaults(
    mkdir: Option<Error>,
    open: Option<Error>,
    read: Option<Error>,
    write: Option<Error>,
    remove: Option<Error>)

  /** Everything an invocation depends on besides the repository: where the
      cache directory is, the clock, URL parsing, OS faults and the provider. */
  datatype World = World(
    host: JsonFile.Host,
    now: Time,
    isRequestURI: string -> bool,
    faults: IoFaults,
    provider: Provider)

  datatype Outcome<+T> = Outcome(result: Result<T>, repo: JsonFile.Repo, trace: seq<Event>)

  /** Result of an operation that returns only an error. */
  datatype Done = Done(err: Option<Error>, repo: JsonFile.Repo, trace: seq<Event>)

  /** `Refresh`'s (bool, error) and the `*Session` as the provider left it. */
  datatype Refreshed = Refreshed(refreshed: bool, session: Session, err: Option<Error>, trace: seq<Event>)

  function PathOf(w: World, name: string): string {
    JsonFile.PathFromName(w.host, name)
  }

  /** Reference definition of a successful load: the stored record decodes,
      is valid, and none of the three repository calls fails. */
  function Loadable(w: World, repo: JsonFile.Repo, name: string): (r: Option<Session>)
    ensures r.Some? ==> IsValid(r.value, w.now, w.isRequestURI)
  {
    var stored := JsonFile.Stored(repo.fs, PathOf(w, name));
    if && stored.Some? && IsValid(stored.value, w.now, w.isRequestURI)
       && w.faults.mkdir.None? && w.faults.open.None? && w.faults.read.None?
    then stored
    else None
  }

  // ---------------------------------------------------------------------------
  // Load and LoadRefresh
  // ---------------------------------------------------------------------------

  /** The part Load and LoadRefresh share: the existence check (its error is
      ignored), Open, Read and the validity check. `holding` says that Open
      succeeded, so the deferred Close is still owed. */
  datatype Locked = Locked(result: Result<Session>, repo: JsonFile.Repo, trace: seq<Event>, holding: bool)

  function OpenAndRead(w: World, repo: JsonFile.Repo, name: string): (o: Locked)
    ensures o.repo.fs == repo.fs
    ensures o.holding ==>
      && o.repo.lFile == Some(JsonFile.LockedFile(PathOf(w, name), false))
      && JsonFile.Attached(o.repo)
      && o.trace == [ExistsCheck(name), Open(name, true), Read]
    ensures !o.holding ==>
      && o.result.Err?
      && (o.trace == [ExistsCheck(name)] || o.trace == [ExistsCheck(name), Open(name, false)])
    ensures !JsonFile.Exists(w.host, repo, name).found ==>
      o.result == Err(DoesNotExist(name)) && o.trace == [ExistsCheck(name)]
    ensures JsonFile.Exists(w.host, repo, name).found ==> |o.trace| >= 2 && o.trace[1].Open?
    ensures o.result.Ok? <==> Loadable(w, repo, name).Some?
    ensures o.result.Ok? ==> Loadable(w, repo, name) == Some(o.result.value)
  {
    if !JsonFile.Exists(w.host, repo, name).found then
      Locked(Err(DoesNotExist(name)), repo, [ExistsCheck(name)], false)
    else
      var attempt := JsonFile.Open(w.host, repo, name, w.faults.mkdir, w.faults.open);
      if attempt.err.Some? then
        Locked(Err(attempt.err.value), attempt.repo, [ExistsCheck(name), Open(name, false)], false)
      else
        var t := [ExistsCheck(name), Open(name, true), Read];
        match JsonFile.Read(attempt.repo, w.faults.read)
        case Err(e) => Locked(Err(FailedToRetrieve(name, e)), attempt.repo, t, true)
        case Ok(s) =>
          if !IsValid(s, w.now, w.isRequestURI) then Locked(Err(InvalidSession(name)), attempt.repo, t, true)
          else Locked(Ok(s), attempt.repo, t, true)
  }

  /** `Load`: a session comes back exactly when the stored record is valid
      and readable, and the store is left as it was. */
  function Load(w: World, repo: JsonFile.Repo, name: string): (out: Outcome<Session>)
    ensures out.result.Ok? <==> Loadable(w, repo, name).Some?
    ensures out.result.Ok? ==> Loadable(w, repo, name) == Some(out.result.value)
    ensures out.repo.fs == repo.fs
  {
    var o := OpenAndRead(w, repo, name);
    if o.holding then Outcome(o.result, JsonFile.Close(o.repo).repo, o.trace + [Close])
    else Outcome(o.result, o.repo, o.trace)
  }

  /** Load only reads: no provider call, no Write, no Remove, and a missing
      name is reported without opening. */
  lemma LoadOnlyReads(w: World, repo: JsonFile.Repo, name: string)
    ensures var out := Load(w, repo, name);
      && (forall e | e in out.trace :: !IsProviderCall(e) && !e.Write? && !e.Remove?)
      && (!JsonFile.Exists(w.host, repo, name).found ==>
            out.result == Err(DoesNotExist(name)) && out.trace == [ExistsCheck(name)])
  {
    var o := OpenAndRead(w, repo, name);
    if o.holding {
      assert Load(w, repo, name).trace == [ExistsCheck(name), Open(name, true), Read, Close];
    }
  }

  /** Load takes at most one lock, on the name, and releases what it takes. */
  lemma LoadHoldsOneLock(w: World, repo: JsonFile.Repo, name: string)
    ensures var out := Load(w, repo, name);
      && multiset(out.trace)[Open(name, true)] == multiset(out.trace)[Close] <= 1
      && (forall e | e in out.trace && e.Open? :: e.name == name)
  {
    var o := OpenAndRead(w, repo, name);
    if o.holding {
      assert Load(w, repo, name).trace == Scoped([ExistsCheck(name)], name, [Read], []);
      ScopedLockCounts([ExistsCheck(name)], name, [Read], []);
    }
  }

  lemma LoadFollowsLockDiscipline(w: World, repo: JsonFile.Repo, name: string)
    ensures WellBracketed(Load(w, repo, name).trace)
  {
    var o := OpenAndRead(w, repo, name);
    if o.holding {
      assert o.trace + [Close] == Scoped([ExistsCheck(name)], name, [Read], []);
      ScopedLockIsWellBracketed([ExistsCheck(name)], name, [Read], []);
    } else if o.trace == [ExistsCheck(name)] {
      NeutralIsWellBracketed(o.trace);
    } else {
      assert o.trace == [ExistsCheck(name)] + [Open(name, false)] + [];
      FailedOpenIsWellBracketed([ExistsCheck(name)], name, []);
    }
  }

  /** `LoadRefresh`: what comes back is the stored session as Refresh leaves
      it, and nothing comes back unless the stored session loads. */
  function LoadRefresh(w: World, repo: JsonFile.Repo, name: string, refreshBeforeExpiry: bool): (out: Outcome<Session>)
    ensures Loadable(w, repo, name).None? ==> out.result.Err?
    ensures out.result.Ok? ==>
      && Loadable(w, repo, name).Some?
      && out.result.value == Refresh(w, Loadable(w, repo, name).value, refreshBeforeExpiry).session
    ensures Loadable(w, repo, name).Some? ==>
      var s := Loadable(w, repo, name).value;
      var r := Refresh(w, s, refreshBeforeExpiry);
      && (r.err.None? && (r.refreshed ==> w.faults.write.None?) ==> out.result == Ok(r.session))
      && (r.err.Some? ==> out.result == Err(r.err.value))
      && (!IsExpired(s, refreshBeforeExpiry, w.now) ==>
            out.result == Ok(s) && forall e | e in out.trace :: !IsProviderCall(e) && !e.Write?)
      && (ProviderRefresh(s) in out.trace <==> RefreshExpiry(s) <= w.now < AccessExpiry(s))
  {
    var o := OpenAndRead(w, repo, name);
    if !o.holding then Outcome(o.result, o.repo, o.trace)
    else
      var u := RefreshLocked(w, o, name, refreshBeforeExpiry);
      Outcome(u.result, JsonFile.Close(u.repo).repo, o.trace + u.trace + [Close])
  }

  /** LoadRefresh's work under the lock, after the Read: Refresh the session
      read, and write it back when Refresh reports it refreshed. The trace is
      the calls made before the deferred Close. */
  function RefreshLocked(w: World, o: Locked, name: string, refreshBeforeExpiry: bool): (u: Outcome<Session>)
    requires o.repo.lFile.Some? && JsonFile.Attached(o.repo)
  {
    if o.result.Err? then Outcome(o.result, o.repo, [])
    else
      var r := Refresh(w, o.result.value, refreshBeforeExpiry);
      if r.err.Some? then Outcome(Err(r.err.value), o.repo, r.trace)
      else if !r.refreshed then Outcome(Ok(r.session), o.repo, r.trace)
      else
        var written := JsonFile.Write(o.repo, Some(r.session), w.faults.write);
        var result := if written.err.Some? then Err(FailedToWriteRepository(name, written.err.value)) else Ok(r.session);
        Outcome(result, written.repo, r.trace + [Write(Some(r.session))])
  }

  /** The session is written back exactly when Refresh reports (true, nil),
      the write is of the refreshed session and nothing else, and after a
      successful write the record on disk is that session. */
  lemma LoadRefreshWritesBackOnlyRefreshed(w: World, repo: JsonFile.Repo, name: string, refreshBeforeExpiry: bool)
    ensures var out := LoadRefresh(w, repo, name, refreshBeforeExpiry);
      var loaded := Loadable(w, repo, name);
      && (loaded.None? ==> forall e | e in out.trace :: !e.Write?)
      && (loaded.Some? ==>
            var r := Refresh(w, loaded.value, refreshBeforeExpiry);
            && (Write(Some(r.session)) in out.trace <==> r.refreshed)
            && (forall e | e in out.trace :: e.Write? ==> e == Write(Some(r.session)))
            && (!r.refreshed ==> out.repo.fs == repo.fs)
            && (r.refreshed && out.result.Ok? ==> JsonFile.Stored(out.repo.fs, PathOf(w, name)) == Some(r.session)))
  {
    if Loadable(w, repo, name).Some? {
      LoadedWriteBack(w, repo, name, refreshBeforeExpiry);
    }
  }

  /** The case where the stored session loads: the write-back of the lemma above. */
  lemma LoadedWriteBack(w: World, repo: JsonFile.Repo, name: string, refreshBeforeExpiry: bool)
    requires Loadable(w, repo, name).Some?
    ensures var out := LoadRefresh(w, repo, name, refreshBeforeExpiry);
      var r := Refresh(w, Loadable(w, repo, name).value, refreshBeforeExpiry);
      && (Write(Some(r.session)) in out.trace <==> r.refreshed)
      && (forall e | e in out.trace :: e.Write? ==> e == Write(Some(r.session)))
      && (!r.refreshed ==> out.repo.fs == repo.fs)
      && (r.refreshed && out.result.Ok? ==> JsonFile.Stored(out.repo.fs, PathOf(w, name)) == Some(r.session))
  {
  }

  /** A session that does not load is never refreshed, written or sent to the
      provider, and the store is left as it was. */
  lemma LoadRefreshOfUnloadableChangesNothing(w: World, repo: JsonFile.Repo, name: string, refreshBeforeExpiry: bool)
    requires Loadable(w, repo, name).None?
    ensures var out := LoadRefresh(w, repo, name, refreshBeforeExpiry);
      && out.repo.fs == repo.fs
      && forall e | e in out.trace :: !IsProviderCall(e) && !e.Write?
  {
  }

  /** Only the file of the name being refreshed can change. */
  lemma LoadRefreshTouchesOnlyItsFile(w: World, repo: JsonFile.Repo, name: string, refreshBeforeExpiry: bool)
    ensures JsonFile.SameElsewhere(LoadRefresh(w, repo, name, refreshBeforeExpiry).repo.fs, repo.fs, PathOf(w, name))
  {
  }

  /** A single Open/Close pair, on the one name. */
  lemma LoadRefreshHoldsOneLock(w: World, repo: JsonFile.Repo, name: string, refreshBeforeExpiry: bool)
    ensures var out := LoadRefresh(w, repo, name, refreshBeforeExpiry);
      && multiset(out.trace)[Open(name, true)] == multiset(out.trace)[Close] <= 1
      && (forall e | e in out.trace && e.Open? :: e.name == name)
  {
    if OpenAndRead(w, repo, name).holding {
      HeldLoadRefreshHoldsOneLock(w, repo, name, refreshBeforeExpiry);
    } else {
      LoadRefreshShape(w, repo, name, refreshBeforeExpiry);
    }
  }

  /** The case where Open succeeded: the one Open/Close pair of the shape. */
  lemma HeldLoadRefreshHoldsOneLock(w: World, repo: JsonFile.Repo, name: string, refreshBeforeExpiry: bool)
    requires OpenAndRead(w, repo, name).holding
    ensures var t := LoadRefresh(w, repo, name, refreshBeforeExpiry).trace;
      && multiset(t)[Open(name, true)] == multiset(t)[Close] == 1
      && (forall e | e in t && e.Open? :: e.name == name)
  {
    LoadRefreshShape(w, repo, name, refreshBeforeExpiry);
    ScopedLockCounts([ExistsCheck(name)], name, LoadRefreshInner(w, repo, name, refreshBeforeExpiry), []);
  }

  /** The trace shape of LoadRefresh: the calls after the successful Open. */
  function LoadRefreshInner(w: World, repo: JsonFile.Repo, name: string, refreshBeforeExpiry: bool): seq<Event>
    requires OpenAndRead(w, repo, name).holding
  {
    [Read] + RefreshLocked(w, OpenAndRead(w, repo, name), name, refreshBeforeExpiry).trace
  }

  lemma LoadRefreshShape(w: World, repo: JsonFile.Repo, name: string, refreshBeforeExpiry: bool)
    ensures var out := LoadRefresh(w, repo, name, refreshBeforeExpiry);
      var o := OpenAndRead(w, repo, name);
      && (!o.holding ==> out.trace == o.trace)
      && (o.holding ==>
            var inner := LoadRefreshInner(w, repo, name, refreshBeforeExpiry);
            && out.trace == Scoped([ExistsCheck(name)], name, inner, [])
            && (forall e | e in inner :: !e.Open? && !e.Close?))
  {
    var o := OpenAndRead(w, repo, name);
    if o.holding {
      var u := RefreshLocked(w, o, name, refreshBeforeExpiry);
      assert o.trace + u.trace + [Close] == Scoped([ExistsCheck(name)], name, [Read] + u.trace, []);
    }
  }

  lemma LoadRefreshFollowsLockDiscipline(w: World, repo: JsonFile.Repo, name: string, refreshBeforeExpiry: bool)
    ensures WellBracketed(LoadRefresh(w, repo, name, refreshBeforeExpiry).trace)
  {
    var o := OpenAndRead(w, repo, name);
    LoadRefreshShape(w, repo, name, refreshBeforeExpiry);
    if !o.holding {
      if o.trace == [ExistsCheck(name)] {
        NeutralIsWellBracketed(o.trace);
      } else {
        assert o.trace == [ExistsCheck(name)] + [Open(name, false)] + [];
        FailedOpenIsWellBracketed([ExistsCheck(name)], name, []);
      }
    } else {
      var inner := LoadRefreshInner(w, repo, name, refreshBeforeExpiry);
      ScopedLockIsWellBracketed([ExistsCheck(name)], name, inner, []);
    }
  }

  /** The provider refresh happens while the session file is locked. */
  lemma LoadRefreshCallsUnderLock(w: World, repo: JsonFile.Repo, name: string, refreshBeforeExpiry: bool)
    ensures CallsUnderLock(LoadRefresh(w, repo, name, refreshBeforeExpiry).trace)
  {
    var o := OpenAndRead(w, repo, name);
    LoadRefreshShape(w, repo, name, refreshBeforeExpiry);
    if o.holding {
      var inner := LoadRefreshInner(w, repo, name, refreshBeforeExpiry);
      ScopedLockCoversCalls([ExistsCheck(name)], name, inner, []);
    }
  }

  // ---------------------------------------------------------------------------
  // Refresh
  // ---------------------------------------------------------------------------

  /** `Refresh`: calls the provider only when the session reads as expired
      and refreshable. Because both tests are written inverted, that is only
      inside the window between the refresh expiry and the access expiry. */
  function Refresh(w: World, s: Session, beforeExpiry: bool): (r: Refreshed)
    ensures r.trace == [] || r.trace == [ProviderRefresh(s)]
    ensures r.trace != [] <==> RefreshExpiry(s) <= w.now < AccessExpiry(s)
    ensures !IsExpired(s, beforeExpiry, w.now) ==> r == Refreshed(false, s, None, [])
    ensures IsExpired(s, beforeExpiry, w.now) && !CanBeRefreshed(s, w.now) ==>
      r == Refreshed(false, s, Some(ExpiredSession(s.name)), [])
    ensures r.trace != [] ==>
      var reply := w.provider.refresh(s);
      && r.session == reply.session
      && (reply.err.Some? ==> !r.refreshed && r.err == Some(FailedToRefresh(reply.session.name, reply.err.value)))
      && (reply.err.None? ==> r.refreshed == reply.refreshed && r.err.None?)
    ensures r.refreshed ==> r.err.None?
  {
    if !IsExpired(s, beforeExpiry, w.now) then
      Refreshed(false, s, None, [])
    else if !CanBeRefreshed(s, w.now) then
      Refreshed(false, s, Some(ExpiredSession(s.name)), [])
    else
      var reply := w.provider.refresh(s);
      if reply.err.Some? then
        Refreshed(false, reply.session, Some(FailedToRefresh(reply.session.name, reply.err.value)), [ProviderRefresh(s)])
      else
        Refreshed(reply.refreshed, reply.session, None, [ProviderRefresh(s)])
  }

  /** With a refresh lifetime at least as long as the access lifetime (the
      usual configuration), Refresh as written never reaches the provider. */
  lemma RefreshNeverReachesProvider(w: World, s: Session, beforeExpiry: bool)
    requires s.token.refreshExpiresIn >= s.token.expiresIn
    ensures Refresh(w, s, beforeExpiry).trace == []
    ensures !Refresh(w, s, beforeExpiry).refreshed
  {
  }

  /** A session issued at `now` takes the "is expired, login again" path. */
  lemma RefreshOfFreshSessionReportsExpired(w: World, s: Session, beforeExpiry: bool)
    requires s.created == w.now
    requires s.token.expiresIn > 0 && s.token.refreshExpiresIn > 0
    ensures Refresh(w, s, beforeExpiry) == Refreshed(false, s, Some(ExpiredSession(s.name)), [])
  {
    FreshSessionReadsAsExpiredAndUnrefreshable(s, w.now, beforeExpiry);
  }

  // ---------------------------------------------------------------------------
  // Login (create)
  // ---------------------------------------------------------------------------

  /** `create`: the login succeeds exactly when the file opens, the provider
      issues a session and the write goes through; the session returned is
      the provider's, and it is then the record stored under the name. */
  function Create(w: World, repo: JsonFile.Repo, req: LoginRequest): (out: Outcome<Session>)
    ensures out.result.Ok? <==>
      && w.faults.mkdir.None? && w.faults.open.None? && w.faults.write.None?
      && JsonFile.CheckFile(repo.fs, PathOf(w, req.name)).err.None?
      && w.provider.create(req).Ok?
    ensures out.result.Ok? ==>
      && w.provider.create(req) == Ok(out.result.value)
      && JsonFile.Stored(out.repo.fs, PathOf(w, req.name)) == Some(out.result.value)
  {
    var name := req.name;
    var attempt := JsonFile.Open(w.host, repo, name, w.faults.mkdir, w.faults.open);
    if attempt.err.Some? then
      Outcome(Err(FailedToOpenRepository(name, attempt.err.value)), attempt.repo, [Open(name, false)])
    else
      match w.provider.create(req)
      case Err(e) =>
        Outcome(Err(FailedToLogin(name, e)), JsonFile.Close(attempt.repo).repo, [Open(name, true), ProviderCreate(req), Close])
      case Ok(s) =>
        var written := JsonFile.Write(attempt.repo, Some(s), w.faults.write);
        var t := [Open(name, true), ProviderCreate(req), Write(Some(s)), Close];
        if written.err.Some? then
          Outcome(Err(FailedToWriteSession(name, written.err.value)), JsonFile.Close(written.repo).repo, t)
        else
          Outcome(Ok(s), JsonFile.Close(written.repo).repo, t)
  }

  /** Whether `create` gets past Open: no directory or open fault, and the
      path is absent or a regular file. */
  predicate CreateOpens(w: World, repo: JsonFile.Repo, req: LoginRequest) {
    var p := PathOf(w, req.name);
    w.faults.mkdir.None? && w.faults.open.None? && (p !in repo.fs || repo.fs[p].RegularFile?)
  }

  /** The provider is asked to log in once, with the request as given, exactly
      when the file opened; when it did not, nothing has changed. */
  lemma CreateCallsProviderOnce(w: World, repo: JsonFile.Repo, req: LoginRequest)
    ensures var out := Create(w, repo, req);
      && (ProviderCreate(req) in out.trace <==> CreateOpens(w, repo, req))
      && (forall e | e in out.trace :: e.ProviderCreate? ==> e.request == req)
      && (!CreateOpens(w, repo, req) ==>
            out.repo == repo && out.trace == [Open(req.name, false)] && out.result.Err?)
  {
    var t := Create(w, repo, req).trace;
    if CreateOpens(w, repo, req) {
      assert t == [Open(req.name, true)] + CreateInner(w, req) + [Close];
    }
  }

  /** The only thing ever written is the session the provider issued; a
      refused login writes nothing and leaves the stored record as it was. */
  lemma CreateWritesOnlyIssuedSession(w: World, repo: JsonFile.Repo, req: LoginRequest)
    ensures var out := Create(w, repo, req);
      && (forall e | e in out.trace :: e.Write? ==>
            w.provider.create(req).Ok? && e.written == Some(w.provider.create(req).value))
      && (w.provider.create(req).Err? ==>
            && (forall e | e in out.trace :: !e.Write?)
            && JsonFile.Stored(out.repo.fs, PathOf(w, req.name)) == JsonFile.Stored(repo.fs, PathOf(w, req.name)))
  {
  }

  /** One Open/Close pair around at most one login, and only the session's
      own file can change. */
  lemma CreateHoldsOneLock(w: World, repo: JsonFile.Repo, req: LoginRequest)
    ensures var out := Create(w, repo, req);
      && multiset(out.trace)[Open(req.name, true)] == multiset(out.trace)[Close] <= 1
      && multiset(out.trace)[ProviderCreate(req)] <= 1
      && JsonFile.SameElsewhere(out.repo.fs, repo.fs, PathOf(w, req.name))
  {
  }

  /** The trace shape of `create`: the calls after the successful Open. */
  function CreateInner(w: World, req: LoginRequest): seq<Event> {
    match w.provider.create(req)
    case Err(_) => [ProviderCreate(req)]
    case Ok(s) => [ProviderCreate(req), Write(Some(s))]
  }

  lemma CreateShape(w: World, repo: JsonFile.Repo, req: LoginRequest)
    ensures var out := Create(w, repo, req);
      && (!CreateOpens(w, repo, req) ==> out.trace == [Open(req.name, false)])
      && (CreateOpens(w, repo, req) ==> out.trace == Scoped([], req.name, CreateInner(w, req), []))
      && (forall e | e in CreateInner(w, req) :: !e.Open? && !e.Close?)
  {
  }

  lemma CreateFollowsLockDiscipline(w: World, repo: JsonFile.Repo, req: LoginRequest)
    ensures WellBracketed(Create(w, repo, req).trace)
  {
    CreateShape(w, repo, req);
    if CreateOpens(w, repo, req) {
      ScopedLockIsWellBracketed([], req.name, CreateInner(w, req), []);
    } else {
      assert [Open(req.name, false)] == [] + [Open(req.name, false)] + [];
      FailedOpenIsWellBracketed([], req.name, []);
    }
  }

  /** The provider login happens while the session file is locked. */
  lemma CreateCallsUnderLock(w: World, repo: JsonFile.Repo, req: LoginRequest)
    ensures CallsUnderLock(Create(w, repo, req).trace)
  {
    CreateShape(w, repo, req);
    if CreateOpens(w, repo, req) {
      ScopedLockCoversCalls([], req.name, CreateInner(w, req), []);
    }
  }

  function CreateWithUsernamePassword(w: World, repo: JsonFile.Repo, name: string, url: string, realm: string,
                                      clientID: string, user: string, password: string, skipVerify: bool)
    : (out: Outcome<Session>)
    ensures forall e | e in out.trace && e.ProviderCreate? ::
      e.request == LoginRequest(name, url, realm, clientID, UsernamePassword(user, password), skipVerify)
    ensures |out.trace| > 0 && out.trace[0].Open? && out.trace[0].name == name
  {
    Create(w, repo, LoginRequest(name, url, realm, clientID, UsernamePassword(user, password), skipVerify))
  }

  function CreateWithClientSecret(w: World, repo: JsonFile.Repo, name: string, url: string, realm: string,
                                  clientID: string, secret: string, skipVerify: bool)
    : (out: Outcome<Session>)
    ensures forall e | e in out.trace && e.ProviderCreate? ::
      e.request == LoginRequest(name, url, realm, clientID, ClientSecret(secret), skipVerify)
    ensures |out.trace| > 0 && out.trace[0].Open? && out.trace[0].name == name
  {
    Create(w, repo, LoginRequest(name, url, realm, clientID, ClientSecret(secret), skipVerify))
  }

  /** A login that the provider refuses still leaves behind the empty file
      Open created, and loading that name then fails to decode it. */
  lemma FailedLoginLeavesUndecodableFile(w: World, repo: JsonFile.Repo, req: LoginRequest)
    requires PathOf(w, req.name) !in repo.fs
    requires w.faults == IoFaults(None, None, None, None, None)
    requires w.provider.create(req).Err?
    ensures var out := Create(w, repo, req);
      && out.repo.fs[PathOf(w, req.name)] == JsonFile.RegularFile(JsonFile.Empty)
      && Load(w, out.repo, req.name).result == Err(FailedToRetrieve(req.name, CannotDecode(req.name)))
  {
    var p := PathOf(w, req.name);
    var attempt := JsonFile.Open(w.host, repo, req.name, None, None);
    var out := Create(w, repo, req);
    assert out.repo.fs == attempt.repo.fs;
    var reopened := JsonFile.Open(w.host, out.repo, req.name, None, None);
    assert JsonFile.Read(reopened.repo, None) == Err(CannotDecode(req.name));
  }

  // ---------------------------------------------------------------------------
  // End
  // ---------------------------------------------------------------------------

  /** `End`: an invalid session, or one for which CanBeRefreshed is false
      (its refresh token still live), is removed without contacting the
      provider; otherwise the provider is asked to end it, and its failure
      stops the removal unless `force` is set. */
  function End(w: World, repo: JsonFile.Repo, s: Session, force: bool): (out: Done)
    ensures ProviderEnd(s) in out.trace <==> IsValid(s, w.now, w.isRequestURI) && RefreshExpiry(s) <= w.now
    ensures forall e | e in out.trace :: e.ProviderEnd? ==> e.session == s
    ensures forall e | e in out.trace :: !e.Open? && !e.Close? && !e.Read? && !e.Write?
    ensures var refused := ProviderEnd(s) in out.trace && w.provider.end(s).Some? && !force;
      && (Remove(s.name) in out.trace <==> !refused)
      && (refused ==> out.repo == repo && out.err == Some(FailedToEnd(s.name, w.provider.end(s).value)))
    ensures force ==> Remove(s.name) in out.trace
    ensures Remove(s.name) in out.trace ==>
      var rm := JsonFile.Remove(w.host, repo, s.name, w.faults.remove);
      out.err == rm.err && out.repo == rm.repo
    ensures out.repo.fs == repo.fs || out.repo.fs == repo.fs - {PathOf(w, s.name)}
    ensures out.err.None? ==> !JsonFile.IsRegularFile(out.repo.fs, PathOf(w, s.name))
  {
    if !IsValid(s, w.now, w.isRequestURI) || !CanBeRefreshed(s, w.now) then
      var removed := JsonFile.Remove(w.host, repo, s.name, w.faults.remove);
      Done(removed.err, removed.repo, [Remove(s.name)])
    else
      var err := w.provider.end(s);
      if err.Some? && !force then
        Done(Some(FailedToEnd(s.name, err.value)), repo, [ProviderEnd(s)])
      else
        var removed := JsonFile.Remove(w.host, repo, s.name, w.faults.remove);
        Done(removed.err, removed.repo, [ProviderEnd(s), Remove(s.name)])
  }

  /** With `force`, a failing provider does not stop local cleanup: when the
      removal itself can succeed, the record is gone and no error returns. */
  lemma ForcedEndAlwaysCleansUp(w: World, repo: JsonFile.Repo, s: Session)
    requires w.faults.remove.None?
    requires JsonFile.CheckFile(repo.fs, PathOf(w, s.name)).err.None?
    ensures var out := End(w, repo, s, true);
      out.err.None? && JsonFile.Stored(out.repo.fs, PathOf(w, s.name)).None?
  {
  }
}

=== FILE: strings.dfy ===
/**
  The string helpers the login command relies on, as Go's `strings` package
  defines them: `TrimSpace` removes leading and trailing white space, where
  white space is what `unicode.IsSpace` accepts.
 */
module Strings {

  /** `unicode.IsSpace`: the ASCII spaces '\t', '\n', '\v', '\f', '\r', ' ',
      U+0085 (NEL), U+00A0 (NBSP), and the other characters with Unicode's
      White_Space property. */
  predicate IsSpace(c: char) {
    var n := c as int;
    || 9 <= n <= 13
    || n == 32
    || n == 0x85
    || n == 0xA0
    || n == 0x1680
    || 0x2000 <= n <= 0x200A
    || n == 0x2028
    || n == 0x2029
    || n == 0x202F
    || n == 0x205F
    || n == 0x3000
  }

  predicate AllSpace(s: string) {
    forall i | 0 <= i < |s| :: IsSpace(s[i])
  }

  /** Neither end of the string is white space. */
  predicate Trimmed(s: string) {
    s == [] || (!IsSpace(s[0]) && !IsSpace(s[|s| - 1]))
  }

  /** The index of the first character at or after `i` that is not white
      space, or `|s|` if there is none. */
  function TrimStart(s: string, i: nat): (k: nat)
    requires i <= |s|
    ensures i <= k <= |s|
    ensures k == |s| || !IsSpace(s[k])
    decreases |s| - i
  {
    if i < |s| && IsSpace(s[i]) then TrimStart(s, i + 1) else i
  }

  /** The end of `s[lo..hi]` once its trailing white space is dropped. */
  function TrimStop(s: string, lo: nat, hi: nat): (k: nat)
    requires lo <= hi <= |s|
    ensures lo <= k <= hi
    ensures k == lo || !IsSpace(s[k - 1])
    decreases hi - lo
  {
    if lo < hi && IsSpace(s[hi - 1]) then TrimStop(s, lo, hi - 1) else hi
  }

  /** `TrimStart` skips white space only. */
  lemma {:induction false} TrimStartSkipsOnlySpace(s: string, i: nat)
    requires i <= |s|
    ensures forall j | i <= j < TrimStart(s, i) :: IsSpace(s[j])
    decreases |s| - i
  {
    if i < |s| && IsSpace(s[i]) {
      TrimStartSkipsOnlySpace(s, i + 1);
    }
  }

  /** `TrimStop` drops white space only. */
  lemma {:induction false} TrimStopDropsOnlySpace(s: string, lo: nat, hi: nat)
    requires lo <= hi <= |s|
    ensures forall j | TrimStop(s, lo, hi) <= j < hi :: IsSpace(s[j])
    decreases hi - lo
  {
    if lo < hi && IsSpace(s[hi - 1]) {
      TrimStopDropsOnlySpace(s, lo, hi - 1);
    }
  }

  /** `strings.TrimSpace`: the infix between the leading and the trailing
      white space; neither end of the result is white space. */
  function TrimSpace(s: string): (t: string)
    ensures Trimmed(t)
  {
    var start := TrimStart(s, 0);
    s[start..TrimStop(s, start, |s|)]
  }

  /** `TrimSpace` returns an infix of its argument, and what it cuts off at
      either end is white space only. */
  lemma TrimSpaceCutsOnlySpace(s: string)
    ensures var i := TrimStart(s, 0);
      var t := TrimSpace(s);
      && i + |t| <= |s|
      && t == s[i..i + |t|]
      && (forall j | 0 <= j < i :: IsSpace(s[j]))
      && (forall j | i + |t| <= j < |s| :: IsSpace(s[j]))
  {
    var i := TrimStart(s, 0);
    TrimStartSkipsOnlySpace(s, 0);
    TrimStopDropsOnlySpace(s, i, |s|);
  }

  /** Cutting white space removes nothing from a string whose ends are not
      white space. */
  lemma TrimmedIsFixedPoint(s: string)
    requires Trimmed(s)
    ensures TrimSpace(s) == s
  {
  }

  /** `TrimSpace` is idempotent. */
  lemma TrimSpaceIdempotent(s: string)
    ensures TrimSpace(TrimSpace(s)) == TrimSpace(s)
  {
    TrimmedIsFixedPoint(TrimSpace(s));
  }

  /** A string trims to nothing exactly when it is all white space. */
  lemma TrimSpaceEmptyIffAllSpace(s: string)
    ensures TrimSpace(s) == [] <==> AllSpace(s)
  {
    TrimSpaceCutsOnlySpace(s);
  }

  /** `strings.HasSuffix`. */
  predicate HasSuffix(s: string, suffix: string) {
    |suffix| <= |s| && s[|s| - |suffix|..] == suffix
  }
}

=== FILE: trace.dfy ===
/**
  The calls the session service makes on its repository and its provider,
  recorded in order, and the lock discipline those calls must follow:
  a successful Open takes the lock, Close releases it, Read and Write happen
  only while it is held, no Open is attempted while it is held, and nothing
  is left locked at the end.
 */
module Trace {
  import opened Errors
  import opened Core

  datatype Event =
    | ExistsCheck(name: string)
    | Open(name: string, ok: bool)
    | Read
    | Write(written: Option<Session>)
    | Close
    | Remove(name: string)
    | ProviderCreate(request: LoginRequest)
    | ProviderRefresh(session: Session)
    | ProviderEnd(session: Session)

  predicate IsProviderCall(e: Event) {
    e.ProviderCreate? || e.ProviderRefresh? || e.ProviderEnd?
  }

  /** Events that touch neither the lock nor the locked file. */
  predicate IsNeutral(e: Event) {
    !e.Open? && !e.Close? && !e.Read? && !e.Write?
  }

  /** Whether the lock is held after `e`, or None if `e` breaks the discipline. */
  function LockStep(held: bool, e: Event): Option<bool> {
    match e
    case Open(_, ok) => if held then None else Some(ok)
    case Close => if held then Some(false) else None
    case Read => if held then Some(true) else None
    case Write(_) => if held then Some(true) else None
    case _ => Some(held)
  }

  function HeldAfter(t: seq<Event>, held: bool): Option<bool>
    decreases |t|
  {
    if t == [] then Some(held)
    else match LockStep(held, t[0])
      case None => None
      case Some(h) => HeldAfter(t[1..], h)
  }

  predicate WellBracketed(t: seq<Event>) {
    HeldAfter(t, false) == Some(false)
  }

  /** Number of successful Opens and of Closes in a trace. */
  function Opens(t: seq<Event>): nat
    decreases |t|
  {
    if t == [] then 0 else (if t[0].Open? && t[0].ok then 1 else 0) + Opens(t[1..])
  }

  function Closes(t: seq<Event>): nat
    decreases |t|
  {
    if t == [] then 0 else (if t[0].Close? then 1 else 0) + Closes(t[1..])
  }

  lemma {:induction false} HeldAfterAppend(a: seq<Event>, b: seq<Event>, held: bool)
    ensures HeldAfter(a + b, held) ==
      match HeldAfter(a, held)
      case None => None
      case Some(h) => HeldAfter(b, h)
    decreases |a|
  {
    if a == [] {
      assert a + b == b;
    } else {
      assert (a + b)[0] == a[0];
      assert (a + b)[1..] == a[1..] + b;
      match LockStep(held, a[0])
      case None =>
      case Some(h) => HeldAfterAppend(a[1..], b, h);
    }
  }

  lemma {:induction false} NeutralKeepsLock(t: seq<Event>, held: bool)
    requires forall e | e in t :: IsNeutral(e)
    ensures HeldAfter(t, held) == Some(held)
    decreases |t|
  {
    if t != [] {
      assert t[0] in t;
      assert forall e | e in t[1..] :: e in t;
      NeutralKeepsLock(t[1..], held);
    }
  }

  lemma {:induction false} LockedPartKeepsLock(t: seq<Event>)
    requires forall e | e in t :: !e.Open? && !e.Close?
    ensures HeldAfter(t, true) == Some(true)
    decreases |t|
  {
    if t != [] {
      assert t[0] in t;
      assert forall e | e in t[1..] :: e in t;
      LockedPartKeepsLock(t[1..]);
    }
  }

  /** The shape every locking operation of the service has: unlocked calls,
      a successful Open, calls made under the lock, the Close, unlocked calls. */
  function Scoped(pre: seq<Event>, name: string, inner: seq<Event>, post: seq<Event>): seq<Event> {
    pre + [Open(name, true)] + inner + [Close] + post
  }

  /** That shape keeps the lock discipline. */
  lemma ScopedLockIsWellBracketed(pre: seq<Event>, name: string, inner: seq<Event>, post: seq<Event>)
    requires forall e | e in pre :: IsNeutral(e)
    requires forall e | e in inner :: !e.Open? && !e.Close?
    requires forall e | e in post :: IsNeutral(e)
    ensures WellBracketed(Scoped(pre, name, inner, post))
  {
    NeutralKeepsLock(pre, false);
    HeldAfterAppend(pre, [Open(name, true)], false);
    HeldAfterAppend(pre + [Open(name, true)], inner, false);
    LockedPartKeepsLock(inner);
    HeldAfterAppend(pre + [Open(name, true)] + inner, [Close], false);
    HeldAfterAppend(pre + [Open(name, true)] + inner + [Close], post, false);
    NeutralKeepsLock(post, false);
  }

  /** Every provider call in the trace happens while the lock is held. */
  ghost predicate CallsUnderLock(t: seq<Event>) {
    forall i | 0 <= i < |t| && IsProviderCall(t[i]) :: HeldAfter(t[..i], false) == Some(true)
  }

  /** In that shape, when the unlocked parts call no provider, every provider
      call is made under the lock. */
  lemma ScopedLockCoversCalls(pre: seq<Event>, name: string, inner: seq<Event>, post: seq<Event>)
    requires forall e | e in pre :: IsNeutral(e) && !IsProviderCall(e)
    requires forall e | e in inner :: !e.Open? && !e.Close?
    requires forall e | e in post :: IsNeutral(e) && !IsProviderCall(e)
    ensures CallsUnderLock(Scoped(pre, name, inner, post))
  {
    var t := pre + [Open(name, true)] + inner + [Close] + post;
    forall i | |pre| < i <= |pre| + |inner|
      ensures HeldAfter(t[..i], false) == Some(true)
    {
      var k := i - |pre| - 1;
      assert t[..i] == pre + [Open(name, true)] + inner[..k];
      NeutralKeepsLock(pre, false);
      HeldAfterAppend(pre, [Open(name, true)], false);
      HeldAfterAppend(pre + [Open(name, true)], inner[..k], false);
      assert forall e | e in inner[..k] :: e in inner;
      LockedPartKeepsLock(inner[..k]);
    }
    assert forall i | 0 <= i < |pre| :: t[i] == pre[i];
    assert forall i | |pre| + |inner| + 2 <= i < |t| :: t[i] == post[i - |pre| - |inner| - 2];
    assert t[|pre|] == Open(name, true);
    assert t[|pre| + |inner| + 1] == Close;
  }

  /** In that shape there is exactly one successful Open on the name,
      exactly one Close, and no other Open at all. */
  lemma ScopedLockCounts(pre: seq<Event>, name: string, inner: seq<Event>, post: seq<Event>)
    requires forall e | e in pre :: IsNeutral(e)
    requires forall e | e in inner :: !e.Open? && !e.Close?
    requires forall e | e in post :: IsNeutral(e)
    ensures var t := Scoped(pre, name, inner, post);
      && multiset(t)[Open(name, true)] == 1 && multiset(t)[Close] == 1
      && forall e | e in t && e.Open? :: e == Open(name, true)
  {
    var t := pre + [Open(name, true)] + inner + [Close] + post;
    assert multiset(t) == multiset(pre) + multiset([Open(name, true)]) + multiset(inner) + multiset([Close]) + multiset(post);
    assert Open(name, true) !in pre && Open(name, true) !in inner && Open(name, true) !in post;
    assert Close !in pre && Close !in inner && Close !in post;
    forall e | e in t && e.Open?
      ensures e == Open(name, true)
    {
      assert e in pre || e in [Open(name, true)] || e in inner || e in [Close] || e in post;
    }
  }

  /** A failed Open takes no lock: the trace stays well bracketed. */
  lemma FailedOpenIsWellBracketed(pre: seq<Event>, name: string, post: seq<Event>)
    requires forall e | e in pre :: IsNeutral(e)
    requires forall e | e in post :: IsNeutral(e)
    ensures WellBracketed(pre + [Open(name, false)] + post)
  {
    NeutralKeepsLock(pre, false);
    HeldAfterAppend(pre, [Open(name, false)], false);
    HeldAfterAppend(pre + [Open(name, false)], post, false);
    NeutralKeepsLock(post, false);
  }

  lemma NeutralIsWellBracketed(t: seq<Event>)
    requires forall e | e in t :: IsNeutral(e)
    ensures WellBracketed(t)
  {
    NeutralKeepsLock(t, false);
  }

  /** In a well-bracketed trace every successful Open is matched by exactly
      one Close. */
  lemma {:induction false} BracketedOpensAreClosed(t: seq<Event>, held: bool, final: bool)
    requires HeldAfter(t, held) == Some(final)
    ensures Opens(t) + (if held then 1 else 0) == Closes(t) + (if final then 1 else 0)
    decreases |t|
  {
    if t != [] {
      var h := LockStep(held, t[0]).value;
      BracketedOpensAreClosed(t[1..], h, final);
    }
  }

  lemma WellBracketedBalances(t: seq<Event>)
    requires WellBracketed(t)
    ensures Opens(t) == Closes(t)
  {
    BracketedOpensAreClosed(t, false, false);
  }
}
